=== FILE: README.md ===
# SastraDaily / 1nf1n1ty social app — a Dafny model of its core logic

The app ships in four near-copies:

- the multi-page PocketBase pages under `js/`;
- the single-file PocketBase edition `script.pocketbase.js`;
- the Firebase edition `script.firebase.js`;
- the localStorage-only edition `script.js`.

All four are DOM wiring around a small core, and this project models that core.

The model has four parts:

- **String helpers.** `escapeHTML` in its three variants, `sanitizeUsername`, `displayName`, the direct-message room key `dm:<lo>::<hi>`, the likes label and the comment preview.
- **Subscription registry.** It holds the posts, users and chat slots and the per-post likes and comments `Map`s. It covers:
  - re-subscribing, which first tries the old handle's disposer;
  - the feed reload;
  - the teardowns on sign-out, where every disposer call is isolated by `try{}catch{}`.
- **Social operations over an abstract store** for each backend:
  - like toggle and double-tap "ensure liked";
  - comment and message send with their guards;
  - the delete-post cascade;
  - the friend list;
  - the profile page's save, preview, counter and realtime filter.
- **The localStorage user table:** sign-up and log-in, with the password hash as a parameter.

Everything is immutable data and pure functions. The backends appear as records:

- PocketBase: sequences of records.
- Firebase: a set of post ids, `map<PostId, set<UserId>>` for likes, and comments per post.
- localStorage: the keys the edition stores.

Foreign values enter as parameters. These are the SDK's subscription handle (a type parameter `H`), whether calling it throws (`throws: H -> bool`), `hash`, `crypto.randomUUID()` and the clock.

Modules and files:

- `base.dfy` (`Base`): optional values, ids, `filter`/`slice`/`splice`/stable `sort` on sequences.
- `text.dfy` (`Text`): `trim`, ASCII `toLowerCase`, string order, `String(n)` and `parseInt(s,10)||0`.
- `escape.dfy` (`Escape`), `username.dfy` (`Username`), `names.dfy` (`Names`), `rooms.dfy` (`Rooms`), `views.dfy` (`Views`).
- `registry.dfy` (`Registry`).
- `pocketbase.dfy` (`PocketBase`), `profile.dfy` (`ProfilePage`), `firebase.dfy` (`Firebase`), `local.dfy` (`Local`).

Two escaper variants share one definition, `Escape.EscapeWith`:

- the full five-entity escaper of `js/shared.js:24`, `script.pocketbase.js:11` and `script.js:202`;
- the Firebase one of `script.firebase.js:25`, whose table has no apostrophe.

`sanitizeUsername` is identical in `js/shared.js:26-29` and `script.pocketbase.js:13-16`. `displayName` is identical in `js/shared.js:57-63` and `script.pocketbase.js:157-164`.

`script.js` calls `getComments`/`setComments` but never defines them. The model takes them to read and write a comments list, the way `getPosts`/`setPosts` (`script.js:66-67`) do for posts. The Local rows about comments therefore describe the evidently intended behaviour. As written, every such call throws a `ReferenceError`:

- the comment send handler (`script.js:319`) throws before any comment is stored;
- the delete handler throws at `script.js:261`, after `setPosts` at `script.js:259`, so the post is gone but its comments and its like list stay;
- `renderComments` (`script.js:162`) and the "View all" handler (`script.js:351`) throw on every render.

## Model

| member | source | states |
|---|---|---|
| Base.Filter | js/chat.js:22 | `filter` keeps exactly the elements that pass the test and never lengthens the list |
| Base.Take | js/feed.js:62 | `slice(0, n)` is a prefix of length `min(n, len)` |
| Base.Last | js/shared.js:61 | `slice(-n)` is a suffix of length `min(n, len)` |
| Base.IndexOf | script.js:332 | `indexOf(x)` of a present `x` is the position of its first copy |
| Base.RemoveFirst | script.js:332-333 | `splice(indexOf(x), 1)` removes exactly the first copy of `x`: the result is the list before that position followed by the list after it, one copy fewer in multiset terms; an absent `x` changes nothing |
| Base.SortBy | script.js:162 | the sort by time gives an ascending permutation of its input |
| Base.SortByStable | script.js:162 | the sort is stable: the elements with any one time keep their input order |
| Base.SortByMembers | script.js:162 | sorting keeps exactly the elements it was given |
| Text.Trim | js/shared.js:58 | `trim()` is `trimEnd` after `trimStart`; Text.TrimSlice, Text.TrimEnds and Text.TrimEmpty state what it keeps |
| Text.TrimStart | js/shared.js:58 | the result is a suffix that does not start with white space, and everything dropped is white space |
| Text.TrimEnd | js/shared.js:58 | the result is a prefix that does not end with white space, and everything dropped is white space |
| Text.TrimSlice | js/shared.js:58 | `trim()` is a contiguous slice with only white space cut on either side |
| Text.TrimEnds | js/shared.js:58 | a non-empty trimmed string neither starts nor ends with white space |
| Text.TrimEmpty | js/profile.js:59-60 | a trimmed text is empty exactly when the input was all white space |
| Text.TrimNoop | js/shared.js:58 | text that neither starts nor ends with white space is left as it is by `trim()` |
| Text.ToLower | js/shared.js:27 | `toLowerCase()` keeps the length, turns each of `A`..`Z` into the letter 32 code points later, keeps every other character, and leaves no upper-case ASCII letter |
| Text.Utf16Length | script.js:97 | `password.length` counts UTF-16 code units: between `\|s\|` and `2\|s\|`, exactly `\|s\|` when every character is in the Basic Multilingual Plane and exactly `2\|s\|` when none is |
| Text.Utf16LengthAppend | script.js:97 | code units add up over concatenation |
| Text.LessAsymmetric | js/chat.js:13 | the default string order used by `sort()` never puts two strings before each other |
| Text.LessTotal | js/chat.js:13 | of two different strings one sorts before the other |
| Text.NatToString | js/profile.js:107 | `String(n)` of a count is a non-empty run of decimal digits |
| Text.LeadingDigits | js/profile.js:107 | the digits `parseInt` reads are the maximal leading run of digits |
| Text.DigitsValueOfNatToString | js/profile.js:107 | reading back the decimal text of `n` gives `n` |
| Text.ParseIntOrZero | js/profile.js:107 | `parseInt(x, 10) \|\| 0` is negative only when the first non-space character is `-` |
| Text.ParseIntOrZeroSplit | js/profile.js:107 | the text is read as leading white space, an optional `+` or `-`, then the leading digits; the result is their value, negated after `-`, and 0 when there are no digits |
| Text.DigitRunAt | js/profile.js:107 | the digits `parseInt` reads form the maximal run of digits at that position in the text |
| Text.ParseNatToString | js/profile.js:107 | `parseInt(String(n) + rest) \|\| 0` is `n` when `rest` does not start with a digit |
| Escape.EscapeHTML | js/shared.js:24 | the five-entity escaper's output has no raw `<`, `>`, `"`, `'` and every `&` begins an entity, and decoding it gives the input back |
| Escape.EscapeHTMLKeepApostrophe | script.firebase.js:25 | the Firebase escaper's output has no raw `<`, `>`, `"` and every `&` begins an entity, and decoding it gives the input back |
| Escape.EscapeWith | js/shared.js:24 | the escaped text is never shorter than the input |
| Escape.EscapeNullable | js/shared.js:24 | `escapeHTML(null)` and `escapeHTML('')` are `''`; any other input is escaped |
| Escape.EscapeIsSafe | js/shared.js:24 | the output has no raw `<`, `>` or `"` (nor `'` in the full variant), and every `&` begins one of the entities |
| Escape.EscapePlainUnchanged | js/shared.js:24 | text with none of `& < > " '` comes back unchanged |
| Escape.EscapeAppend | js/shared.js:24 | escaping distributes over concatenation |
| Escape.UnescapeEscape | js/shared.js:24 | decoding the entities of an escaped text gives back the input, so escaping loses nothing |
| Escape.EscapeInjective | js/shared.js:24 | two different texts never escape to the same markup |
| Escape.KeepApostropheAgrees | script.firebase.js:25 | the Firebase escaper equals the full one on text without `'`, and it leaves a `'` in the output |
| Username.KeepAllowed | js/shared.js:27 | the filter leaves only `a-z 0-9 _ . -`, and keeps every allowed character of the input, in order and as often as it occurs |
| Username.StripLeading | js/shared.js:27 | `^[_.-]+` removes exactly the leading separators; what remains does not start with one |
| Username.StripTrailing | js/shared.js:27 | `[_.-]+$` removes exactly the trailing separators; what remains does not end with one |
| Username.Strip | js/shared.js:27 | both separator runs go together: on clean text the result is clean and, when non-empty, starts and ends with a letter or digit |
| Username.Stripped | js/shared.js:27 | the value before the cut is clean and, when non-empty, starts and ends with a letter or digit |
| Username.StrippedSlice | js/shared.js:27 | the value before the cut is a slice of the lower-cased, filtered input with only separators cut away at either end |
| Username.SanitizeUsername | js/shared.js:26-29 | the username has at most 30 allowed characters, is empty or starts with a letter or digit, and is the first `min(30, len)` characters of the stripped value |
| Username.SanitizeEndsAlnum | js/shared.js:27-28 | with no cut, the username also ends with a letter or digit |
| Username.SanitizeIdempotent | js/shared.js:27-28 | with no cut, sanitizing again changes nothing |
| Username.SanitizeOfClean | js/shared.js:26-29 | clean text with alphanumeric ends is only cut to 30 characters |
| Username.SanitizeDropsTrailingSeparator | js/shared.js:27 | a separator appended to a clean name is stripped again |
| Username.TruncationBreaksIdempotence | js/shared.js:27-28 | 29 letters, a separator and a letter sanitize to a name ending in the separator, which a second pass strips |
| Username.FilteredIgnoresTrim | script.pocketbase.js:87 | white space around the input never survives lower-casing and filtering |
| Username.SanitizeIgnoresTrim | script.pocketbase.js:288 | `sanitizeUsername(raw.trim())` equals `sanitizeUsername(raw)` |
| Names.DisplayName | js/shared.js:57-63 | the shown name is never empty and never starts with white space. It is the trimmed username if that is non-empty. Otherwise it is `User-` and the last up-to-four characters of a non-empty id. Otherwise it is `User`. |
| Names.DisplayNameOfSanitized | js/shared.js:57-59 | a stored non-empty sanitized username is shown exactly as stored |
| Names.FallbackNeverSanitized | js/shared.js:60-62 | a fallback name (`User…`, with a capital letter) can never coincide with a sanitized username |
| Rooms.SortPair | js/chat.js:13 | `[a,b].sort()` returns the same two strings in ascending order |
| Rooms.RoomId | js/chat.js:13 | the room key is `dm:`, the smaller of the two ids in string order, `::` and the larger one; its length is `\|a\|+\|b\|+5` |
| Rooms.RoomIdSymmetric | js/chat.js:13 | both participants compute the same room key |
| Rooms.RoomIdInjective | js/chat.js:13 | for ids without `:`, equal room keys mean the same unordered pair |
| Rooms.RoomIdCollision | js/chat.js:13 | with `:` allowed, the pairs (`a`, `b::c`) and (`a::b`, `c`) share the key `dm:a::b::c` |
| Views.LikesLabel | js/feed.js:52 | the label is empty exactly for 0 likes, `1 like` for one and `n likes` otherwise |
| Views.LikesLabelReadsBack | js/feed.js:52 | the number a likes label starts with is the count |
| Views.Preview | js/feed.js:62-65 | a truthy `firstN` shows the first `min(firstN, len)` comments, and a falsy one shows all of them. "View all len" appears exactly when `firstN` is truthy and `len > firstN`. |
| Views.PreviewHidesNothingSilently | js/feed.js:62-65 | without the "View all" entry every comment is shown; with it, fewer than the announced total are shown |
| Views.CountedPreview | script.firebase.js:193-200 | the Firebase preview shows the query's items, plus "View all total" exactly when `firstN` is set and a count arrived that exceeds them |
| Views.CountedPreviewAgrees | script.firebase.js:189-200 | with a successful count, the Firebase preview equals the PocketBase one |
| Views.CountFailureOnlyOmitsEntry | script.firebase.js:196-200 | a failed count changes nothing but the absence of the "View all" entry |
| Registry.Find | js/feed.js:44 | `map.get(k)` is undefined exactly when `k` is not a key, and otherwise returns `k`'s handle |
| Registry.Put | js/feed.js:55 | `map.set` keeps the key order and appends a new key last |
| Registry.PutFind | js/feed.js:55 | after `set`, `get` returns the new handle for `k` and the old answer for every other key |
| Registry.PutUnique | js/feed.js:55 | `set` never makes a key appear twice |
| Registry.AttemptAll | js/feed.js:39 | every entry's disposer is tried once, in insertion order, and a throw does not stop the rest |
| Registry.AttemptSlot | js/feed.js:38 | a filled slot's disposer is tried once, and an empty slot's is not |
| Registry.AttemptAllCovers | js/feed.js:39-40 | the disposers tried are exactly the table's handles, in order, whichever of them throw |
| Registry.Resubscribe | js/feed.js:43-55 | after re-subscribing, `p` maps to the new handle and every other key is unchanged. The old handle of `p`, if any, is the only one whose disposer is tried. Keys stay unique, and `p` is appended only when new. |
| Registry.SubscribeLikes | js/feed.js:43-56 | `subscribeLikes(p)` replaces only `p`'s likes entry, tries its previous handle's disposer, and keeps the rest of the registry |
| Registry.SubscribeComments | js/feed.js:58-70 | `subscribeComments(p)` replaces only `p`'s comments entry, tries its previous handle's disposer, and keeps the rest of the registry |
| Registry.SubscribeLikesTwice | js/feed.js:43-55 | subscribing a post twice tries the first handle's disposer and keeps the second handle, with no extra key |
| Registry.FeedCleanup | js/feed.js:37-41 | `cleanup` tries the posts slot, then every likes handle, then every comments handle. Afterwards both maps are empty and the slot is null. |
| Registry.CleanupSubscriptions | script.pocketbase.js:136-142 | sign-out tries every handle of all five kinds, in order, and ends with an empty registry |
| Registry.FirebaseSignOut | script.firebase.js:109-115 | sign-out runs the feed cleanup, then tries the users and chat disposers; Registry.FirebaseSignOutIsCleanup relates it to the PocketBase teardown |
| Registry.FirebaseSignOutIsCleanup | script.firebase.js:109-115 | the Firebase sign-out tears down exactly as the PocketBase one does |
| Registry.CleanupIgnoresFaults | script.pocketbase.js:136-142 | the teardown's end state and the handles it tries do not depend on which disposers throw |
| Registry.SubscribePost | js/feed.js:81-82 | one loop iteration installs `p`'s like and comment handles, leaves other keys alone and keeps keys unique |
| Registry.SubscribeEach | js/feed.js:78-83 | the subscribe loop touches only the two maps |
| Registry.SubscribeEachValid | js/feed.js:78-83 | the loop keeps both maps free of repeated keys |
| Registry.SubscribeEachOthers | js/feed.js:78-83 | entries of posts not on the page are left as they were |
| Registry.SubscribeEachKeys | js/feed.js:78-83 | afterwards the keys are the old keys plus the page's posts |
| Registry.SubscribeEachFinds | js/feed.js:78-83 | every loaded post maps to the handles created for it |
| Registry.SubscribeEachFresh | js/feed.js:78-83 | distinct posts new to both maps are appended in order, and no disposer is tried |
| Registry.LoadAndRenderFeed | js/feed.js:72-84 | without the list element nothing happens. Otherwise the disposer of every old per-post handle is tried first. The keys of both maps are then exactly the at most 12 loaded posts, in order when the posts are distinct, and the slots are untouched. |
| Registry.SubscribeFeed | js/feed.js:86-91 | the old posts handle's disposer is tried first, the feed is reloaded and the new posts handle is stored |
| Registry.FirebaseSubscribeFeed | script.firebase.js:207-211 | the Firebase feed subscription first runs the feed cleanup, then stores the new posts handle |
| Registry.SubscribeUsers | js/chat.js:17-31 | the old users handle's disposer is tried before the new handle is stored |
| Registry.SubscribeChat | js/chat.js:43-55 | the old chat handle's disposer is always tried; a new handle is stored exactly when signed in with a peer |
| Registry.SubscribeChatTwice | js/chat.js:44-54 | switching peers tries the disposer of the handle the previous switch stored |
| PocketBase.ToggleLike | script.pocketbase.js:254-259 | signed out, nothing changes. Otherwise only likes change, and no other like's count moves. With at most one like per user and post, whether I like the post flips and the invariant is kept. |
| PocketBase.ToggleLikeTwice | script.pocketbase.js:254-258 | toggling twice restores the likes collection |
| PocketBase.DuplicateLikeSurvivesToggle | script.pocketbase.js:256-257 | with two like records of mine, one toggle leaves the post still liked |
| PocketBase.EnsureLiked | js/feed.js:186-188 | afterwards I like the post; an existing like means nothing changes, otherwise exactly one record is added |
| PocketBase.EnsureLikedIdempotent | js/feed.js:187-188 | ensuring a like twice is ensuring it once |
| PocketBase.DoubleTapFeed | js/feed.js:180-191 | an in-window tap while signed out changes nothing, not even `lastTap`. Any other tap records its time. An in-window tap while signed in ensures my like. |
| PocketBase.DoubleTapSingle | script.pocketbase.js:372-383 | every tap records its time; an in-window signed-in tap ensures my like, and anything else changes nothing |
| PocketBase.DoubleTapOnlyLikes | js/feed.js:184-190 | a double tap never removes a like and keeps at most one like per user; both editions reach the same store |
| PocketBase.Liked | js/feed.js:46-50 | the button test `!!(me && list.some(l => l.user === me.id))`; PocketBase.LikedMatchesStore relates it to the store |
| PocketBase.LikedMatchesStore | js/feed.js:46-50 | the button's "Liked" test (`list.some(l => l.user === me.id)`) on the post's likes agrees with the store holding my like |
| PocketBase.SendComment | script.pocketbase.js:337-345 | signed out or with blank text nothing is written; otherwise exactly one comment with the trimmed text is appended |
| PocketBase.SentCommentJoinsItsPost | script.pocketbase.js:343 | a sent comment appears last in its own post's filtered list, and no other post's list changes |
| PocketBase.DeletePost | script.pocketbase.js:319-332 | afterwards no comment, like or post of `pid` remains, all others remain, and messages are untouched |
| PocketBase.DeletePostKeepsOrder | script.pocketbase.js:324-328 | the survivors keep their order, and deleting again changes nothing |
| PocketBase.Friends | js/chat.js:20-22 | signed out, the list is empty; otherwise it holds exactly the users whose id is not mine |
| PocketBase.FriendsExactlyOthers | js/chat.js:22 | the friend list is the user list in order, without my entries and with every other entry kept |
| PocketBase.SendMessage | js/chat.js:57-64 | nothing is sent when signed out, with no peer, with blank text or to myself. Otherwise one message is sent, carrying the canonical room, the trimmed text, me as sender and the peer as receiver. |
| PocketBase.SentMessageSeenByBoth | js/chat.js:46-50 | a sent message passes both ends' room filters and is drawn `out` for the sender and `in` for the receiver |
| PocketBase.SignupRequestFor | script.pocketbase.js:84-91 | the email is trimmed and lower-cased, the bio is the default, and the username is sent exactly when it sanitizes to non-empty |
| PocketBase.UsernameCorrection | script.pocketbase.js:102-110 | a correction to `sanitize(raw)` is written exactly when that is non-empty and the fetched record holds something else |
| PocketBase.SignupStoresSanitized | script.pocketbase.js:102-108 | after the correction the stored username is `sanitize(raw)`, whatever the server stored first |
| ProfilePage.ProfileDelete | js/profile.js:84-103 | with no `pid` or a declined confirm nothing changes; otherwise the post, its comments and its likes are gone and nothing else is touched |
| ProfilePage.DeleteUnreferencedIsNoop | js/profile.js:95-103 | deleting an id nothing refers to leaves the store as it was |
| ProfilePage.DecrementCount | js/profile.js:107 | the counter shows digits, and its value is `max(0, n-1)`, where `n` is `parseInt` of the old text (0 when the text is missing or non-numeric) |
| ProfilePage.DecrementCountOfNumber | js/profile.js:107 | a counter showing `n` shows `n-1`, and 0 stays 0 |
| ProfilePage.DecrementCountOfText | js/profile.js:107 | a counter holding non-numeric text shows 0 |
| ProfilePage.SavedBio | js/profile.js:33-43 | the saved bio is the trimmed input, or the default text when that is empty; it is never empty |
| ProfilePage.SavePayload | js/profile.js:31-46 | the multi-page save sends the saved bio, and the trimmed username exactly when it is non-empty |
| ProfilePage.SavePayloadSanitized | script.pocketbase.js:285-291 | the single-file save sends the saved bio, and the sanitized username exactly when it is non-empty |
| ProfilePage.SaveEditionsAgree | script.pocketbase.js:287-291 | both saves send the same bio; a username the single-file save sends is the sanitized form of the one the multi-page save sends |
| ProfilePage.BioPreview | js/profile.js:58-61 | the preview is the trimmed input, or the default text when that is missing or blank |
| ProfilePage.PreviewShowsSavedBio | js/profile.js:58-61 | the live preview shows exactly the bio a save would store |
| ProfilePage.MyPosts | js/profile.js:74 | the grid keeps the stored order and holds exactly the posts whose author is me |
| ProfilePage.ShouldRerender | js/profile.js:122 | the test `e?.record?.user === me.id`; ProfilePage.OwnEventRerenders and ProfilePage.IgnoredEventKeepsGrid state its consequences |
| ProfilePage.IgnoredEventKeepsGrid | js/profile.js:121-123 | a create or delete event the filter ignores cannot change my posts grid |
| ProfilePage.FilterDropsOther | js/profile.js:74 | removing someone else's post leaves the list of my posts unchanged |
| ProfilePage.OwnEventRerenders | js/profile.js:122 | an event about a post of mine triggers a re-render |
| Firebase.ToggleLike | script.firebase.js:227-232 | signed out, nothing changes; otherwise my uid's membership in the post's likes flips, and every other uid and post is kept |
| Firebase.ToggleLikeTwice | script.firebase.js:229-231 | toggling twice restores every post's likes |
| Firebase.DoubleTap | script.firebase.js:346-361 | the tap time is recorded; an in-window signed-in tap adds my uid to the post's likes, and anything else changes nothing |
| Firebase.DoubleTapOnlyAdds | script.firebase.js:351-358 | a double tap removes no like and adds at most one; a second one changes nothing |
| Firebase.DeletePost | script.firebase.js:282-300 | a missing post changes nothing. Otherwise the post and its likes and comments are gone, and every other post's likes and comments and all messages are kept. |
| Firebase.DeletePostIdempotent | script.firebase.js:286 | deleting twice is deleting once |
| Firebase.Friends | script.firebase.js:372-380 | signed out, the list is empty; otherwise it holds exactly the e-mails other than mine |
| Firebase.FriendsExactlyOthers | script.firebase.js:377 | the friend list is the e-mail list in order, without mine and with every other entry kept |
| Firebase.SubscribedRoom | script.firebase.js:386 | the subscribed room key starts with `dm:` |
| Firebase.SendMessage | script.firebase.js:393-399 | nothing is sent when signed out, with no peer or with blank text. Otherwise one message is sent, carrying the sorted-e-mail room, the trimmed text, me as sender and the peer as receiver. |
| Firebase.SentMessageInSubscribedRoom | script.firebase.js:386-396 | a sent message carries the room both the sender and the receiver subscribe to |
| Firebase.RoomMessages | script.firebase.js:387 | the query returns the room's messages, oldest first: a permutation of the stored messages whose room matches, each as often as it is stored |
| Firebase.RoomViewAsWritten | script.firebase.js:387 | the chat view as written is the first `min(50, len)` messages of the room's history, that is the oldest ones |
| Firebase.RoomViewLatest | script.firebase.js:387 | the corrected view is the last `min(50, len)` messages of the room's history |
| Firebase.SentIsNewestInRoom | script.firebase.js:387-397 | a message newer than every stored one is the last message of its room |
| Firebase.SentMessageHiddenAsWritten | script.firebase.js:387 | once a room holds 50 messages, a newly sent one is missing from the chat view as written |
| Firebase.SentMessageShownLatest | script.firebase.js:387 | in the corrected view a newly sent message is always shown, as the last one |
| Local.FindUser | script.js:83 | `find` fails exactly for an unregistered e-mail; otherwise it returns that e-mail's user, the only one when e-mails are unique |
| Local.Signup | script.js:93-105 | sign-up refuses an empty e-mail or a password under 6 UTF-16 code units, then refuses a registered e-mail. Otherwise it appends one user with the hashed password and signs in. |
| Local.AstralPasswordAccepted | script.js:97 | a password of three characters outside the Basic Multilingual Plane (three emoji) passes the length test |
| Local.SignupKeepsEmailsUnique | script.js:97-102 | a successful sign-up grows the user table by exactly one, keeps the old users and keeps e-mails unique |
| Local.Login | script.js:79-90 | an unknown e-mail gives "Account not found" and a wrong hash gives "Invalid password"; a registered e-mail with the matching hash signs in, and success only sets the session |
| Local.SignupThenLogin | script.js:79-105 | logging in with the credentials just used to sign up succeeds |
| Local.ToggleLike | script.js:326-342 | signed out, nothing changes. Otherwise only the post's list changes: a like pushes my e-mail at the end, and an unlike splices out its first copy while the others keep their order, so no other e-mail's count moves. In a list without repeats my membership flips and there are still no repeats. |
| Local.UnlikeKeepsNoDup | script.js:332-333 | splicing my e-mail out keeps every other count and, in a list without repeats, leaves no copy |
| Local.LikeKeepsNoDup | script.js:333 | pushing an absent e-mail adds one copy and keeps the list free of repeats |
| Local.ToggleLikeCount | script.js:337-340 | the count shown after a toggle is one more or one fewer, matching the flip |
| Local.ToggleLikeTwice | script.js:330-335 | toggling twice restores the post's likers |
| Local.DoubleTap | script.js:376-395 | the tap time is always recorded. An in-window signed-in tap pushes my e-mail when it is missing, and anything else changes nothing. Lists stay free of repeats. |
| Local.DoubleTapIsToggleWhenUnliked | script.js:384-387 | the double tap is the toggle when I had not liked the post, and does nothing when I had |
| Local.DeletePost | script.js:254-266 | the post and its comments are removed and the post's like list is deleted; other posts, comments and like lists are kept |
| Local.DeletePostKeepsOthers | script.js:259-263 | the surviving posts and comments keep their order, and each keeps its multiplicity while the deleted post's entries go |
| Local.SubmitPost | script.js:186-199 | signed out, or with a blank caption and no image, nothing is added. Otherwise exactly one post by me with the trimmed caption is appended. |
| Local.SubmittedPostHasContent | script.js:192-194 | any post the share button adds is mine and has a caption or an image |
| Local.PostComments | script.js:162 | a post's comment list is its comments, oldest first: a permutation of the stored comments on the post, with comments of equal time in stored order, as the stable `sort` leaves them |
| Local.RenderComments | script.js:160-173 | more than two comments show the first two plus "View all N"; otherwise all are shown |
| Local.SendComment | script.js:312-325 | signed out or with blank text nothing is written; otherwise one comment with the trimmed text, by me, is appended |
| Local.SentCommentListed | script.js:319-323 | a sent comment is listed under its post, whose list grows by one, and no other post's list changes |
| Local.UsersList | script.js:277-284 | signed out, all users are listed; otherwise exactly the users with another e-mail |
| Local.UsersListLength | script.js:279 | with unique e-mails the list is one shorter than the user table when I am registered and as long otherwise; it keeps order and drops only my entry |
| Local.DropMineLength | script.js:279 | the filter on e-mail drops exactly one entry of a table with unique e-mails that holds mine, and none otherwise |
| Local.RoomMessages | script.js:294 | the chat shows the room's messages, oldest first: a permutation of the stored messages in the room, with messages of equal time in stored order |
| Local.RenderChat | script.js:291-297 | with no peer the chat is empty. Signed out with a peer, the handler fails. Otherwise it shows a permutation of the pair's room messages, oldest first. |
| Local.SendMessage | script.js:299-309 | nothing is sent when signed out, with no peer or with blank text. Otherwise one message is appended, carrying the pair's room, the trimmed text, me as sender and the peer as receiver. |
| Local.SentMessageRendered | script.js:293-305 | a sent message appears in the sender's chat with the peer and in the peer's chat with the sender |

## Left out

- DOM rendering, routing, theme, modals, focus and scrolling: these are user interface, not logic.
- Image handling (`compressImage`, `makeAvatarFromEmail`, `fileToDataURL`, `dataUrlToBlob`): these are canvas and browser APIs with floating-point scaling.
- PocketBase, Firestore and Storage SDK calls, filter strings, `serverTimestamp`, file URLs: each backend is an abstract store, a create appends a record and a delete removes one. The count query's result is a parameter.
- The subscription callbacks themselves: a handler's rendering is modelled by the view functions, and a handle is an opaque value of type `H`.
- Registry: whether a disposer call succeeds is the parameter `throws`. With pocketbase@0.21.3 (`js/shared.js:1`, `script.pocketbase.js:4`), `subscribe` returns a Promise that the PocketBase editions store without awaiting (`js/feed.js:55,69,90`, `js/chat.js:30,54`). So in those editions every `try{u()}catch{}` throws, `throws` is always true, and no subscription is actually closed. The Registry rows state which disposers are tried, and `Registry.CleanupIgnoresFaults` shows the bookkeeping does not depend on `throws`.
- SHA-256 (`crypto.subtle`), `crypto.randomUUID()`, `Math.random`, `Date.now()`: these appear as parameters (`hash`, the new id, the current time).
- `JSON.parse` in `readJSON` and the storage keys: the localStorage state is a record of its decoded values.
- BroadcastChannel and `storage`-event cross-tab sync, and async interleavings (a realtime event re-entering the feed reload): every handler runs to completion on its own.
- `Date` parsing and `toLocaleString`: times are integers.
- ProfilePage.DecrementCount: counts are exact integers. JavaScript's `parseInt` and `String` work on doubles, so the result agrees with the source only below 2^53: `"9007199254740993"` becomes `"9007199254740991"` in JavaScript and `"9007199254740992"` in the model.
- ProfilePage.DecrementCountOfNumber: proved for every `n`; the source gives `n-1` only for `n` below 2^53.
- Text.NatToString: `String(n)` is a run of digits only below 10^21; from there JavaScript uses exponent form (`1e+21`), which is not modelled.
- Text.ParseNatToString: `parseInt` reads back `n` exactly only below 2^53, where doubles hold every integer.
- Text.ToLower: only ASCII letters are lower-cased. JavaScript's `toLowerCase` also maps other letters, and some of them become ASCII letters that survive the `[^a-z0-9_.-]` filter of `js/shared.js:27`: U+212A KELVIN SIGN becomes `k` and U+0130 becomes `i` followed by U+0307. So `sanitizeUsername` of U+212A is `k` in JavaScript but empty in the model.
- Names.DisplayName: `id.slice(-4)` is taken over characters, not UTF-16 code units. The two differ only for an id with characters outside the Basic Multilingual Plane, which the backends' ids do not contain. The password length test is modelled in code units (`Text.Utf16Length`).
- Text.IsSpace: takes ASCII white space, no-break space, byte-order mark and U+2028/U+2029 as the white space `trim` removes. The other Unicode space separators are treated as ordinary characters.
- Text.Less: compares Dafny characters, which are Unicode scalar values. JavaScript's `sort` compares UTF-16 code units, and the two orders differ only for characters outside the Basic Multilingual Plane.
- `generateUsernameFromEmail`: it is random, needs the network and is never called.
- The Firebase sign-up and log-in: these are SDK calls with no client-side logic beyond the trimmed, lower-cased e-mail.
- PocketBase.ToggleLike: the flip of "I like this post" is stated only under `AtMostOneLike`. The client does not prevent two like records by one user, and `PocketBase.DuplicateLikeSurvivesToggle` shows the toggle is not a flip then.
- Local.ToggleLike: the flip of membership is stated only for a like list without repeats (`NoDup`), which the toggle and the double tap both preserve.
- Firebase.DoubleTap: with no session inside the 300 ms window, the source builds the like reference from an empty uid. Whether the SDK throws there, which would skip `lastTap = now`, is SDK behaviour. The model records the tap time.
- ProfilePage.IgnoredEventKeepsGrid: covers create and delete events. An update that moves one of my posts to another user carries the other user's id, so `js/profile.js:122` ignores it even though my grid loses the post; that case is not modelled.
- ProfilePage.ProfileDelete, PocketBase.DeletePost, Firebase.DeletePost: every remote write is assumed to succeed. A delete the backend rejects (another user's comment that the rules forbid me to delete, say) stops the cascade part-way: the deletes already done stay done, and the post remains. `js/profile.js:108-110` catches the rejection and alerts, while `script.pocketbase.js:325-328` and `script.firebase.js:290-296` leave it unhandled. The state after a rejected delete is not modelled.
- Registry.FirebaseSubscribeFeed: the snapshot callback's rebuild of the per-post maps is the same loop as `Registry.LoadAndRenderFeed` and is not modelled again. The `{unsub, firstN}` pair stored for comments is modelled by its handle, because `firstN` is never read back.

## Findings

| source | as written | input that shows it | evidently intended | confidence | as-written member | corrected member |
|---|---|---|---|---|---|---|
| script.firebase.js:387 | the chat query orders by `created_at` ascending and then applies `limit(50)`, so it keeps the 50 oldest messages of the room | a room that already holds 50 messages, then one more sent message: the sent message is not among the 50 the view shows | show the 50 most recent messages, oldest first (for example by ordering descending before the limit and reversing, or with `limitToLast(50)`) | not executed | Firebase.SentMessageHiddenAsWritten | Firebase.SentMessageShownLatest |

=== FILE: base.dfy ===
/** Shared vocabulary of the model: optional values (JavaScript's `null` /
    `undefined`), identifiers, and the sequence helpers the app's
    `Array.prototype.filter`, `slice` and `sort` calls stand for. */
module Base {

  /** A value that may be absent: `null`, `undefined` or a missing field. */
  datatype Option<+T> = None | Some(value: T) {
    function GetOr(default: T): T {
      match this
      case Some(v) => v
      case None => default
    }
  }

  type PostId = string
  type UserId = string

  /** `Math.min` on naturals. */
  function Min(a: nat, b: nat): nat {
    if a <= b then a else b
  }

  /** `xs.slice(0, n)`: the first `n` elements, or all of them. */
  function Take<T>(xs: seq<T>, n: nat): (r: seq<T>)
    ensures |r| == Min(n, |xs|)
    ensures r <= xs
  {
    if n <= |xs| then xs[..n] else xs
  }

  /** `xs.slice(-n)`: the last `n` elements, or all of them. */
  function Last<T>(xs: seq<T>, n: nat): (r: seq<T>)
    ensures |r| == Min(n, |xs|)
    ensures xs == xs[..|xs| - |r|] + r
  {
    if n <= |xs| then xs[|xs| - n..] else xs
  }

  /** `r` keeps some of the elements of `xs`, in their original order. */
  predicate IsSubsequence<T(==)>(r: seq<T>, xs: seq<T>)
  {
    if r == [] then true
    else if xs == [] then false
    else if r[0] == xs[0] then IsSubsequence(r[1..], xs[1..])
    else IsSubsequence(r, xs[1..])
  }

  /** `xs.filter(p)`. */
  function Filter<T(==,!new)>(xs: seq<T>, p: T -> bool): (r: seq<T>)
    ensures |r| <= |xs|
    ensures forall x :: x in r <==> x in xs && p(x)
  {
    if xs == [] then []
    else
      var rest := Filter(xs[1..], p);
      assert xs == [xs[0]] + xs[1..];
      if p(xs[0]) then [xs[0]] + rest else rest
  }

  /** `xs.filter(p)` keeps the survivors in their original order. */
  lemma {:induction false} FilterIsSubsequence<T(!new)>(xs: seq<T>, p: T -> bool)
    ensures IsSubsequence(Filter(xs, p), xs)
  {
    if xs != [] {
      FilterIsSubsequence(xs[1..], p);
      var rest := Filter(xs[1..], p);
      if p(xs[0]) {
        assert Filter(xs, p) == [xs[0]] + rest;
        assert ([xs[0]] + rest)[1..] == rest;
      }
    }
  }

  /** `xs.filter(p)` keeps every copy of a survivor and no copy of anything else. */
  lemma {:induction false} FilterCounts<T(!new)>(xs: seq<T>, p: T -> bool)
    ensures forall x :: multiset(Filter(xs, p))[x] == if p(x) then multiset(xs)[x] else 0
  {
    if xs != [] {
      FilterCounts(xs[1..], p);
      assert xs == [xs[0]] + xs[1..];
      assert multiset(xs) == multiset{xs[0]} + multiset(xs[1..]);
    }
  }

  /** Filtering distributes over appending one element at the end, which is
      how a freshly pushed record joins a filtered view. */
  lemma FilterSnoc<T(!new)>(xs: seq<T>, x: T, p: T -> bool)
    ensures Filter(xs + [x], p) == Filter(xs, p) + (if p(x) then [x] else [])
  {
    FilterAppend(xs, [x], p);
    assert [x][1..] == [];
  }

  /** Filtering distributes over concatenation. */
  lemma {:induction false} FilterAppend<T(!new)>(a: seq<T>, b: seq<T>, p: T -> bool)
    ensures Filter(a + b, p) == Filter(a, p) + Filter(b, p)
  {
    if a == [] {
      assert a + b == b;
    } else {
      assert (a + b)[0] == a[0];
      assert (a + b)[1..] == a[1..] + b;
      FilterAppend(a[1..], b, p);
    }
  }

  /** Filtering keeps a sequence whose elements all pass. */
  lemma {:induction false} FilterAll<T(!new)>(xs: seq<T>, p: T -> bool)
    requires forall i :: 0 <= i < |xs| ==> p(xs[i])
    ensures Filter(xs, p) == xs
  {
    if xs != [] {
      FilterAll(xs[1..], p);
      assert xs == [xs[0]] + xs[1..];
    }
  }

  /** Filtering empties a sequence none of whose elements pass. */
  lemma {:induction false} FilterNone<T(!new)>(xs: seq<T>, p: T -> bool)
    requires forall i :: 0 <= i < |xs| ==> !p(xs[i])
    ensures Filter(xs, p) == []
  {
    if xs != [] {
      FilterNone(xs[1..], p);
    }
  }

  /** Filtering twice with the same test is filtering once. */
  lemma FilterIdempotent<T(!new)>(xs: seq<T>, p: T -> bool)
    ensures Filter(Filter(xs, p), p) == Filter(xs, p)
  {
    var r := Filter(xs, p);
    assert forall i :: 0 <= i < |r| ==> r[i] in r;
    FilterAll(r, p);
  }

  /** `xs.indexOf(x)` when `x` is present: the position of its first copy. */
  function IndexOf<T(==)>(xs: seq<T>, x: T): (i: nat)
    requires x in xs
    ensures i < |xs| && xs[i] == x && x !in xs[..i]
  {
    if xs[0] == x then 0
    else
      var j := IndexOf(xs[1..], x);
      assert xs[..j + 1] == [xs[0]] + xs[1..][..j];
      j + 1
  }

  /** `arr.splice(arr.indexOf(x), 1)` when `x` is present: drops the first
      copy of `x` and keeps the rest in order. */
  function RemoveFirst<T(==)>(xs: seq<T>, x: T): (r: seq<T>)
    ensures x in xs ==> r == xs[..IndexOf(xs, x)] + xs[IndexOf(xs, x) + 1..]
    ensures x in xs ==> multiset(r) == multiset(xs) - multiset{x}
    ensures x !in xs ==> r == xs
  {
    if xs == [] then []
    else if xs[0] == x then
      assert xs == [x] + xs[1..];
      xs[1..]
    else
      var rest := RemoveFirst(xs[1..], x);
      RemoveFirstCons(xs, x, rest);
      RemoveFirstMultisetCons(xs, x, rest);
      [xs[0]] + rest
  }

  lemma RemoveFirstMultisetCons<T>(xs: seq<T>, x: T, rest: seq<T>)
    requires xs != [] && xs[0] != x
    requires x in xs[1..] ==> multiset(rest) == multiset(xs[1..]) - multiset{x}
    requires x !in xs[1..] ==> rest == xs[1..]
    ensures x in xs ==> multiset([xs[0]] + rest) == multiset(xs) - multiset{x}
    ensures x !in xs ==> [xs[0]] + rest == xs
  {
    assert xs == [xs[0]] + xs[1..];
  }

  /** The splice shape carries over from the tail to the whole list. */
  lemma RemoveFirstCons<T>(xs: seq<T>, x: T, rest: seq<T>)
    requires xs != [] && xs[0] != x
    requires x in xs[1..] ==> rest == xs[1..][..IndexOf(xs[1..], x)] + xs[1..][IndexOf(xs[1..], x) + 1..]
    ensures x in xs ==> [xs[0]] + rest == xs[..IndexOf(xs, x)] + xs[IndexOf(xs, x) + 1..]
  {
    if x in xs {
      IndexOfCons(xs, x);
      SpliceCons(xs, IndexOf(xs[1..], x));
    }
  }

  lemma IndexOfCons<T>(xs: seq<T>, x: T)
    requires x in xs && xs[0] != x
    ensures x in xs[1..] && IndexOf(xs, x) == IndexOf(xs[1..], x) + 1
  {
    assert xs == [xs[0]] + xs[1..];
  }

  lemma SpliceCons<T>(xs: seq<T>, j: nat)
    requires j + 1 < |xs|
    ensures [xs[0]] + (xs[1..][..j] + xs[1..][j + 1..]) == xs[..j + 1] + xs[j + 2..]
  {
    assert xs[..j + 1] == [xs[0]] + xs[1..][..j];
    assert xs[j + 2..] == xs[1..][j + 1..];
  }

  /** Ascending by a key, ties keep their input order: `arr.sort((a,b) => key(a) - key(b))`. */
  predicate SortedBy<T>(xs: seq<T>, key: T -> int)
  {
    forall i, j :: 0 <= i < j < |xs| ==> key(xs[i]) <= key(xs[j])
  }

  /** Inserts `x` before the first element whose key is not smaller, so
      `x` comes ahead of every element with its key. */
  function InsertBy<T>(x: T, xs: seq<T>, key: T -> int): (r: seq<T>)
    requires SortedBy(xs, key)
    ensures SortedBy(r, key)
    ensures multiset(r) == multiset(xs) + multiset{x}
    ensures |r| == |xs| + 1
  {
    if xs == [] then [x]
    else if key(x) <= key(xs[0]) then
      ConsSorted(x, xs, key);
      [x] + xs
    else
      var rest := InsertBy(x, xs[1..], key);
      assert xs == [xs[0]] + xs[1..];
      HeadBelow(xs, x, rest, key);
      ConsSorted(xs[0], rest, key);
      [xs[0]] + rest
  }

  lemma ConsSorted<T>(h: T, xs: seq<T>, key: T -> int)
    requires SortedBy(xs, key)
    requires forall k :: 0 <= k < |xs| ==> key(h) <= key(xs[k])
    ensures SortedBy([h] + xs, key)
  {
    var ys := [h] + xs;
    forall i, j | 0 <= i < j < |ys| ensures key(ys[i]) <= key(ys[j]) {
      assert ys[j] == xs[j - 1];
      if i > 0 { assert ys[i] == xs[i - 1]; }
    }
  }

  lemma HeadBelow<T>(xs: seq<T>, x: T, rest: seq<T>, key: T -> int)
    requires xs != [] && SortedBy(xs, key) && key(xs[0]) < key(x)
    requires multiset(rest) == multiset(xs[1..]) + multiset{x}
    ensures forall k :: 0 <= k < |rest| ==> key(xs[0]) <= key(rest[k])
  {
    forall k | 0 <= k < |rest| ensures key(xs[0]) <= key(rest[k]) {
      assert rest[k] in multiset(rest);
      if rest[k] != x {
        assert rest[k] in multiset(xs[1..]);
        var j :| 0 <= j < |xs[1..]| && xs[1..][j] == rest[k];
        assert xs[j + 1] == rest[k];
      }
    }
  }

  /** Sorting by key, with each element of `xs` inserted in turn into the
      sorted rest. JavaScript's `Array.prototype.sort` is stable, and
      SortByStable proves this one is too. */
  function SortBy<T>(xs: seq<T>, key: T -> int): (r: seq<T>)
    ensures SortedBy(r, key)
    ensures multiset(r) == multiset(xs)
    ensures |r| == |xs|
  {
    if xs == [] then []
    else
      assert xs == [xs[0]] + xs[1..];
      InsertBy(xs[0], SortBy(xs[1..], key), key)
  }

  /** Sorting keeps exactly the elements it was given. */
  lemma SortByMembers<T>(xs: seq<T>, key: T -> int)
    ensures forall x :: x in SortBy(xs, key) <==> x in xs
  {
    var r := SortBy(xs, key);
    forall x ensures x in r <==> x in xs {
      assert x in r <==> x in multiset(r);
      assert x in xs <==> x in multiset(xs);
    }
  }

  /** The elements whose key is `c`. */
  function KeyIs<T>(key: T -> int, c: int): T -> bool {
    (y: T) => key(y) == c
  }

  /** Inserting `x` puts it ahead of every element with the same key. */
  lemma {:induction false} InsertByFilter<T(!new)>(x: T, ys: seq<T>, key: T -> int, c: int)
    requires SortedBy(ys, key)
    ensures Filter(InsertBy(x, ys, key), KeyIs(key, c))
              == (if key(x) == c then [x] else []) + Filter(ys, KeyIs(key, c))
  {
    var p := KeyIs(key, c);
    if ys == [] {
      assert InsertBy(x, ys, key) == [x] + ys;
      FilterPrepend(x, ys, p);
    } else if key(x) <= key(ys[0]) {
      assert InsertBy(x, ys, key) == [x] + ys;
      FilterPrepend(x, ys, p);
    } else {
      assert SortedBy(ys[1..], key);
      InsertByFilter(x, ys[1..], key, c);
      var rest := InsertBy(x, ys[1..], key);
      assert InsertBy(x, ys, key) == [ys[0]] + rest;
      FilterPrepend(ys[0], rest, p);
      FilterPrepend(ys[0], ys[1..], p);
      assert ys == [ys[0]] + ys[1..];
      var px := if key(x) == c then [x] else [];
      var py := if key(ys[0]) == c then [ys[0]] else [];
      SwapEmpty(py, px, Filter(ys[1..], p));
    }
  }

  lemma SwapEmpty<T>(a: seq<T>, b: seq<T>, r: seq<T>)
    requires a == [] || b == []
    ensures a + (b + r) == b + (a + r)
  {
  }

  lemma FilterPrepend<T(!new)>(y: T, rest: seq<T>, p: T -> bool)
    ensures Filter([y] + rest, p) == (if p(y) then [y] else []) + Filter(rest, p)
  {
    assert ([y] + rest)[1..] == rest;
  }

  /** The sort is stable: among the elements with any one key, the sorted
      list keeps their input order. */
  lemma {:induction false} SortByStable<T(!new)>(xs: seq<T>, key: T -> int, c: int)
    ensures Filter(SortBy(xs, key), KeyIs(key, c)) == Filter(xs, KeyIs(key, c))
  {
    if xs != [] {
      SortByStable(xs[1..], key, c);
      InsertByFilter(xs[0], SortBy(xs[1..], key), key, c);
    }
  }

  /** Stability for every key at once. */
  lemma SortByStableAll<T(!new)>(xs: seq<T>, key: T -> int)
    ensures forall c :: Filter(SortBy(xs, key), KeyIs(key, c)) == Filter(xs, KeyIs(key, c))
  {
    forall c ensures Filter(SortBy(xs, key), KeyIs(key, c)) == Filter(xs, KeyIs(key, c)) {
      SortByStable(xs, key, c);
    }
  }
}

=== FILE: escape.dfy ===
/** HTML escaping of user text before it is put into `innerHTML`.
    The PocketBase editions and the localStorage edition replace all five of
    `& < > " '`; the Firebase edition's table has no entry for `'`, so its
    `[c] || c` fallback leaves apostrophes as they are. */
module Escape {
  import opened Base

  /** One of the characters the escape regular expression `/[&<>"']/g` matches. */
  predicate IsSpecial(c: char) {
    c == '&' || c == '<' || c == '>' || c == '"' || c == '\''
  }

  /** `t` begins with one of the entities the escaper writes. With
      `apostrophe` false the `&#39;` entity is not among them. */
  predicate StartsWithEntity(t: string, apostrophe: bool) {
    "&amp;" <= t || "&lt;" <= t || "&gt;" <= t || "&quot;" <= t || (apostrophe && "&#39;" <= t)
  }

  /** Markup-safe text: no raw `<`, `>` or `"` (nor `'` when apostrophes are
      escaped), and every `&` is the start of an entity. */
  predicate Safe(r: string, apostrophe: bool) {
    forall i :: 0 <= i < |r| ==>
      && r[i] != '<' && r[i] != '>' && r[i] != '"'
      && (apostrophe ==> r[i] != '\'')
      && (r[i] == '&' ==> StartsWithEntity(r[i..], apostrophe))
  }

  /** The replacement for one character; `apostrophe` says whether `'`
      has an entry in the replacement table. */
  function EscapeChar(c: char, apostrophe: bool): string {
    if c == '&' then "&amp;"
    else if c == '<' then "&lt;"
    else if c == '>' then "&gt;"
    else if c == '"' then "&quot;"
    else if c == '\'' && apostrophe then "&#39;"
    else [c]
  }

  /** `s.replace(/[&<>"']/g, c => table[c] || c)`. */
  function EscapeWith(s: string, apostrophe: bool): (r: string)
    ensures |r| >= |s|
  {
    if s == [] then [] else EscapeChar(s[0], apostrophe) + EscapeWith(s[1..], apostrophe)
  }

  /** The five-entity escaper of the PocketBase editions and the
      localStorage edition's `escape`. */
  function EscapeHTML(s: string): (r: string)
    ensures Safe(r, true)
    ensures Unescape(r) == s
  {
    EscapeIsSafe(s, true);
    UnescapeEscape(s, true);
    EscapeWith(s, true)
  }

  /** The Firebase edition's escaper, whose table lacks `'`. */
  function EscapeHTMLKeepApostrophe(s: string): (r: string)
    ensures Safe(r, false)
    ensures Unescape(r) == s
  {
    EscapeIsSafe(s, false);
    UnescapeEscape(s, false);
    EscapeWith(s, false)
  }

  /** `escapeHTML(s)` as written with `(s || '')`: a missing or empty input
      gives the empty string, anything else is escaped. */
  function EscapeNullable(s: Option<string>): (r: string)
    ensures r == [] <==> s == None || s == Some([])
    ensures s.Some? ==> r == EscapeHTML(s.value)
  {
    EscapeWith(s.GetOr([]), true)
  }

  /** Reverses the escaper: each entity becomes its character again. */
  function Unescape(r: string): string
    decreases |r|
  {
    if r == [] then []
    else if "&amp;" <= r then "&" + Unescape(r[5..])
    else if "&lt;" <= r then "<" + Unescape(r[4..])
    else if "&gt;" <= r then ">" + Unescape(r[4..])
    else if "&quot;" <= r then "\"" + Unescape(r[6..])
    else if "&#39;" <= r then "'" + Unescape(r[5..])
    else [r[0]] + Unescape(r[1..])
  }

  lemma SafeAppend(a: string, b: string, apostrophe: bool)
    requires Safe(a, apostrophe) && Safe(b, apostrophe)
    ensures Safe(a + b, apostrophe)
  {
    var ab := a + b;
    forall i | 0 <= i < |ab| && ab[i] == '&'
      ensures StartsWithEntity(ab[i..], apostrophe)
    {
      if i < |a| {
        assert ab[i..] == a[i..] + b;
        assert StartsWithEntity(a[i..], apostrophe);
      } else {
        assert ab[i..] == b[i - |a|..];
      }
    }
  }

  /** An entity the escaper writes is safe text by itself: its only `&`
      is its first character. */
  lemma SafeEntity(e: string, apostrophe: bool)
    requires e in ["&amp;", "&lt;", "&gt;", "&quot;"] || (apostrophe && e == "&#39;")
    ensures Safe(e, apostrophe)
  {
    assert e[0..] == e;
    forall i | 0 < i < |e| ensures e[i] != '&' && e[i] != '<' && e[i] != '>' && e[i] != '"' && e[i] != '\'' {
    }
  }

  lemma SafeEscapeChar(c: char, apostrophe: bool)
    ensures Safe(EscapeChar(c, apostrophe), apostrophe)
  {
    var e := EscapeChar(c, apostrophe);
    if IsSpecial(c) && (c != '\'' || apostrophe) {
      SafeEntity(e, apostrophe);
    } else {
      assert e == [c];
    }
  }

  /** The escaper's output is markup-safe: no raw `<`, `>`, `"` (and no raw
      `'` for the five-entity escaper), every `&` starting an entity. */
  lemma {:induction false} EscapeIsSafe(s: string, apostrophe: bool)
    ensures Safe(EscapeWith(s, apostrophe), apostrophe)
  {
    if s != [] {
      EscapeIsSafe(s[1..], apostrophe);
      SafeEscapeChar(s[0], apostrophe);
      SafeAppend(EscapeChar(s[0], apostrophe), EscapeWith(s[1..], apostrophe), apostrophe);
    }
  }

  /** Text with none of `& < > " '` passes through unchanged. */
  lemma {:induction false} EscapePlainUnchanged(s: string, apostrophe: bool)
    requires forall i :: 0 <= i < |s| ==> !IsSpecial(s[i])
    ensures EscapeWith(s, apostrophe) == s
  {
    if s != [] {
      EscapePlainUnchanged(s[1..], apostrophe);
      assert s == [s[0]] + s[1..];
    }
  }

  /** Escaping distributes over concatenation. */
  lemma {:induction false} EscapeAppend(a: string, b: string, apostrophe: bool)
    ensures EscapeWith(a + b, apostrophe) == EscapeWith(a, apostrophe) + EscapeWith(b, apostrophe)
  {
    if a == [] {
      assert a + b == b;
    } else {
      assert (a + b)[0] == a[0];
      assert (a + b)[1..] == a[1..] + b;
      EscapeAppend(a[1..], b, apostrophe);
    }
  }

  lemma UnescapeEntity(e: string, c: char, rest: string)
    requires e == EscapeChar(c, true) && e != [c]
    ensures Unescape(e + rest) == [c] + Unescape(rest)
  {
    var r := e + rest;
    assert r[|e|..] == rest;
    assert e <= r;
    assert r[1] == e[1];
    if c != '&' {
      assert !("&amp;" <= r);
      if c != '<' {
        assert !("&lt;" <= r);
        if c != '>' {
          assert !("&gt;" <= r);
          if c != '"' {
            assert !("&quot;" <= r);
          }
        }
      }
    }
  }

  lemma UnescapePlain(c: char, rest: string)
    requires c != '&'
    ensures Unescape([c] + rest) == [c] + Unescape(rest)
  {
    var r := [c] + rest;
    assert r[0] == c && r[1..] == rest;
    assert !("&amp;" <= r) && !("&lt;" <= r) && !("&gt;" <= r) && !("&quot;" <= r) && !("&#39;" <= r);
  }

  /** Unescaping the escaper's output gives back the input, so no two texts
      are escaped to the same markup. */
  lemma {:induction false} UnescapeEscape(s: string, apostrophe: bool)
    ensures Unescape(EscapeWith(s, apostrophe)) == s
  {
    if s != [] {
      UnescapeEscape(s[1..], apostrophe);
      var c := s[0];
      var e := EscapeChar(c, apostrophe);
      var rest := EscapeWith(s[1..], apostrophe);
      if e == [c] {
        UnescapePlain(c, rest);
      } else {
        assert e == EscapeChar(c, true);
        UnescapeEntity(e, c, rest);
      }
      assert s == [c] + s[1..];
    }
  }

  lemma EscapeInjective(a: string, b: string, apostrophe: bool)
    requires EscapeWith(a, apostrophe) == EscapeWith(b, apostrophe)
    ensures a == b
  {
    UnescapeEscape(a, apostrophe);
    UnescapeEscape(b, apostrophe);
  }

  /** The Firebase escaper differs from the five-entity one only on
      apostrophes: without any `'` in the input both give the same text, and
      an input `'` is still there, raw, in the Firebase output. */
  lemma KeepApostropheAgrees(s: string)
    ensures (forall i :: 0 <= i < |s| ==> s[i] != '\'') ==> EscapeHTMLKeepApostrophe(s) == EscapeHTML(s)
    ensures '\'' in s ==> '\'' in EscapeHTMLKeepApostrophe(s)
  {
    NoApostropheAgrees(s);
    ApostropheKept(s);
  }

  /** Without `'` the two tables escape alike. */
  lemma {:induction false} NoApostropheAgrees(s: string)
    ensures (forall i :: 0 <= i < |s| ==> s[i] != '\'') ==> EscapeWith(s, false) == EscapeWith(s, true)
  {
    if s != [] {
      NoApostropheAgrees(s[1..]);
      if forall i :: 0 <= i < |s| ==> s[i] != '\'' {
        assert forall i :: 0 <= i < |s[1..]| ==> s[1..][i] == s[i + 1];
        assert EscapeChar(s[0], false) == EscapeChar(s[0], true);
      }
    }
  }

  /** The Firebase table leaves every `'` in the output. */
  lemma {:induction false} ApostropheKept(s: string)
    ensures '\'' in s ==> '\'' in EscapeWith(s, false)
  {
    if s != [] {
      ApostropheKept(s[1..]);
      var e := EscapeChar(s[0], false);
      var rest := EscapeWith(s[1..], false);
      if s[0] == '\'' {
        assert (e + rest)[0] == '\'';
      } else if '\'' in s {
        assert '\'' in s[1..];
        var k :| 0 <= k < |rest| && rest[k] == '\'';
        assert (e + rest)[|e| + k] == '\'';
      }
    }
  }
}

=== FILE: firebase.dfy ===
/** The Firebase edition's social state. Firestore keeps likes and
    comments in sub-collections under each post; a like document is named
    by the liker's uid, so a post's likes are a set of uids. The room key is
    built from the two e-mail addresses. */
module Firebase {
  import opened Base
  import opened Text
  import opened Rooms

  datatype FComment = FComment(userEmail: string, text: string, created: int)

  datatype FMessage = FMessage(room: string, text: string, sender: string, receiver: string, created: int)

  /** `posts` holds the ids of existing post documents; `likes` and
      `comments` are the sub-collections by post id. */
  datatype FStore = FStore(
    posts: set<PostId>,
    likes: map<PostId, set<UserId>>,
    comments: map<PostId, seq<FComment>>,
    messages: seq<FMessage>)

  /** The documents of `posts/{p}/likes`; a missing sub-collection is empty. */
  function LikesOf(s: FStore, p: PostId): set<UserId> {
    if p in s.likes then s.likes[p] else {}
  }

  /** The like button: signed out it only navigates away; otherwise the like
      document named by my uid is deleted when it exists and written when it
      does not. */
  function ToggleLike(s: FStore, me: Option<UserId>, p: PostId): (r: FStore)
    ensures r == s.(likes := r.likes)
    ensures me.None? ==> r == s
    ensures me.Some? ==> (me.value in LikesOf(r, p) <==> me.value !in LikesOf(s, p))
    ensures me.Some? ==> LikesOf(r, p) - {me.value} == LikesOf(s, p) - {me.value}
    ensures forall q :: q != p ==> LikesOf(r, q) == LikesOf(s, q)
  {
    if me.None? then s
    else
      var cur := LikesOf(s, p);
      var next := if me.value in cur then cur - {me.value} else cur + {me.value};
      s.(likes := s.likes[p := next])
  }

  /** Toggling twice leaves every post with the likes it had. */
  lemma ToggleLikeTwice(s: FStore, me: UserId, p: PostId)
    ensures forall q :: LikesOf(ToggleLike(ToggleLike(s, Some(me), p), Some(me), p), q) == LikesOf(s, q)
  {
    var r := ToggleLike(ToggleLike(s, Some(me), p), Some(me), p);
    assert LikesOf(r, p) == LikesOf(s, p) by {
      assert me in LikesOf(r, p) <==> me in LikesOf(s, p);
      assert LikesOf(r, p) - {me} == LikesOf(s, p) - {me};
    }
  }

  /** The double tap: within 300 ms of the previous tap and signed in, my
      like document is written unless it exists. `lastTap` always becomes
      `now`. */
  function DoubleTap(s: FStore, lastTap: int, now: int, me: Option<UserId>, p: PostId): (r: (FStore, int))
    ensures r.1 == now
    ensures r.0 == s.(likes := r.0.likes)
    ensures now - lastTap < 300 && me.Some? ==> LikesOf(r.0, p) == LikesOf(s, p) + {me.value}
    ensures !(now - lastTap < 300 && me.Some?) ==> r.0 == s
    ensures forall q :: q != p ==> LikesOf(r.0, q) == LikesOf(s, q)
  {
    if now - lastTap < 300 && me.Some? && me.value !in LikesOf(s, p) then
      (s.(likes := s.likes[p := LikesOf(s, p) + {me.value}]), now)
    else (s, now)
  }

  /** A double tap never removes a like, adds at most mine, and a second
      double tap right after changes nothing more. */
  lemma DoubleTapOnlyAdds(s: FStore, lastTap: int, now: int, me: Option<UserId>, p: PostId, later: int)
    requires now - lastTap < 300 && me.Some?
    ensures LikesOf(s, p) <= LikesOf(DoubleTap(s, lastTap, now, me, p).0, p)
    ensures |LikesOf(DoubleTap(s, lastTap, now, me, p).0, p)| <= |LikesOf(s, p)| + 1
    ensures var t := DoubleTap(s, lastTap, now, me, p).0;
            forall q :: LikesOf(DoubleTap(t, now, later, me, p).0, q) == LikesOf(t, q)
  {
    var t := DoubleTap(s, lastTap, now, me, p).0;
    assert LikesOf(t, p) == LikesOf(s, p) + {me.value};
    var t2 := DoubleTap(t, now, later, me, p).0;
    assert LikesOf(t2, p) == LikesOf(t, p) by {
      if later - now < 300 {
        assert LikesOf(t, p) + {me.value} == LikesOf(t, p);
      }
    }
  }

  /** The delete button: a post that does not exist is left alone; otherwise
      its comments and likes go, then the post document. */
  function DeletePost(s: FStore, pid: PostId): (r: FStore)
    ensures pid !in s.posts ==> r == s
    ensures pid in s.posts ==>
              && r.posts == s.posts - {pid}
              && pid !in r.likes && pid !in r.comments
              && (forall q :: q != pid ==> LikesOf(r, q) == LikesOf(s, q))
              && (forall q :: q != pid ==> (q in r.comments <==> q in s.comments))
              && (forall q :: q != pid && q in s.comments ==> q in r.comments && r.comments[q] == s.comments[q])
              && r.messages == s.messages
  {
    if pid !in s.posts then s
    else FStore(s.posts - {pid}, s.likes - {pid}, s.comments - {pid}, s.messages)
  }

  /** Deleting twice is deleting once. */
  lemma DeletePostIdempotent(s: FStore, pid: PostId)
    ensures DeletePost(DeletePost(s, pid), pid) == DeletePost(s, pid)
  {
  }

  /** The friend list: signed out it is empty, otherwise every user whose
      e-mail is not mine, in order. */
  function Friends(emails: seq<string>, me: Option<string>): (r: seq<string>)
    ensures me.None? ==> r == []
    ensures me.Some? ==> forall e :: e in r <==> e in emails && e != me.value
  {
    if me.None? then [] else Filter(emails, (e: string) => e != me.value)
  }

  /** The other users keep their order and multiplicity. */
  lemma FriendsExactlyOthers(emails: seq<string>, me: string)
    ensures IsSubsequence(Friends(emails, Some(me)), emails)
    ensures forall e :: multiset(Friends(emails, Some(me)))[e] == if e == me then 0 else multiset(emails)[e]
  {
    FilterIsSubsequence(emails, (e: string) => e != me);
    FilterCounts(emails, (e: string) => e != me);
  }

  /** The room the chat subscription listens to: `dm:` and the two sorted
      e-mail addresses. */
  function SubscribedRoom(me: string, peer: string): (r: string)
    ensures "dm:" <= r
  {
    RoomId(me, peer)
  }

  /** The chat form: signed in, a peer chosen and a non-blank text write one
      message with the room key built from the two addresses; otherwise
      nothing is written. There is no check against writing to oneself. */
  function SendMessage(s: FStore, me: Option<string>, peer: Option<string>, input: string, now: int): (r: FStore)
    ensures r == s.(messages := r.messages)
    ensures me.None? || peer.None? || Trim(input) == [] ==> r == s
    ensures me.Some? && peer.Some? && Trim(input) != [] ==>
              r.messages == s.messages + [FMessage(RoomId(me.value, peer.value), Trim(input), me.value, peer.value, now)]
  {
    if me.None? || peer.None? then s
    else
      var text := Trim(input);
      if text == [] then s
      else
        s.(messages := s.messages + [FMessage(RoomId(me.value, peer.value), text, me.value, peer.value, now)])
  }

  /** The send handler and the subscription build the same key, so a sent
      message falls inside the room both the sender and the receiver
      listen to. */
  lemma SentMessageInSubscribedRoom(s: FStore, me: string, peer: string, input: string, now: int)
    requires Trim(input) != []
    ensures var r := SendMessage(s, Some(me), Some(peer), input, now);
            && r.messages[|r.messages| - 1].room == SubscribedRoom(me, peer)
            && r.messages[|r.messages| - 1].room == SubscribedRoom(peer, me)
  {
    RoomIdSymmetric(me, peer);
  }

  /** The most messages the chat query returns. */
  const ChatLimit: nat := 50

  function Created(m: FMessage): int { m.created }

  /** A room's messages, oldest first. */
  function RoomMessages(msgs: seq<FMessage>, room: string): (r: seq<FMessage>)
    ensures SortedBy(r, Created)
    ensures forall m :: m in r <==> m in msgs && m.room == room
    ensures multiset(r) == multiset(Filter(msgs, InRoom(room)))
  {
    var f := Filter(msgs, InRoom(room));
    var r := SortBy(f, Created);
    SortByMembers(f, Created);
    r
  }

  /** The query filter `where('room','==',room)`. */
  function InRoom(room: string): FMessage -> bool {
    (m: FMessage) => m.room == room
  }

  /** The chat view as written: `orderBy('created_at','asc')` with
      `limit(50)`, which keeps the oldest 50 messages of the room. */
  function RoomViewAsWritten(msgs: seq<FMessage>, room: string): (r: seq<FMessage>)
    ensures |r| <= ChatLimit
    ensures |r| == Min(ChatLimit, |RoomMessages(msgs, room)|)
    ensures r <= RoomMessages(msgs, room)
  {
    Take(RoomMessages(msgs, room), ChatLimit)
  }

  /** The chat view as evidently intended: the latest 50 messages of the
      room, oldest first. */
  function RoomViewLatest(msgs: seq<FMessage>, room: string): (r: seq<FMessage>)
    ensures |r| <= ChatLimit
    ensures |r| == Min(ChatLimit, |RoomMessages(msgs, room)|)
    ensures RoomMessages(msgs, room) == RoomMessages(msgs, room)[..|RoomMessages(msgs, room)| - |r|] + r
  {
    Last(RoomMessages(msgs, room), ChatLimit)
  }

  /** In a list sorted by creation time, a message newer than every other
      element is the last one. */
  lemma NewestIsLast(xs: seq<FMessage>, m: FMessage)
    requires SortedBy(xs, Created) && m in xs
    requires forall i :: 0 <= i < |xs| && xs[i] != m ==> xs[i].created < m.created
    ensures xs[|xs| - 1] == m
  {
    var i :| 0 <= i < |xs| && xs[i] == m;
    assert Created(xs[i]) <= Created(xs[|xs| - 1]);
  }

  /** The room holds `m` once more than `msgs` does. */
  lemma RoomMessagesSnoc(msgs: seq<FMessage>, m: FMessage)
    ensures multiset(RoomMessages(msgs + [m], m.room)) == multiset(RoomMessages(msgs, m.room)) + multiset{m}
  {
    FilterSnoc(msgs, m, InRoom(m.room));
  }

  /** A sorted list made of older messages and one newer `m` ends with its
      only copy of `m`. */
  lemma SortedNewestLast(before: seq<FMessage>, all: seq<FMessage>, m: FMessage)
    requires SortedBy(all, Created)
    requires multiset(all) == multiset(before) + multiset{m}
    requires forall x :: x in before ==> x.created < m.created
    ensures |all| == |before| + 1 && all[|all| - 1] == m && multiset(all)[m] == 1
  {
    assert multiset(before)[m] == 0;
    assert |all| == |multiset(all)|;
    forall i | 0 <= i < |all| && all[i] != m
      ensures all[i].created < m.created
    {
      assert all[i] in multiset(all);
      assert all[i] in multiset(before);
    }
    assert m in multiset(all);
    NewestIsLast(all, m);
  }

  /** The newest message sent into a room ends the room's sorted list, and
      it is there once. */
  lemma SentIsNewestInRoom(msgs: seq<FMessage>, m: FMessage)
    requires forall x :: x in msgs ==> x.created < m.created
    ensures |RoomMessages(msgs + [m], m.room)| == |RoomMessages(msgs, m.room)| + 1
    ensures RoomMessages(msgs + [m], m.room)[|RoomMessages(msgs, m.room)|] == m
    ensures multiset(RoomMessages(msgs + [m], m.room))[m] == 1
  {
    var before := RoomMessages(msgs, m.room);
    var all := RoomMessages(msgs + [m], m.room);
    RoomMessagesSnoc(msgs, m);
    assert forall x :: x in before ==> x.created < m.created;
    SortedNewestLast(before, all, m);
  }

  /** As written, once a room holds 50 earlier messages a newly sent message
      is never shown: it is the newest, so it sorts after the 50 the query
      keeps. */
  lemma SentMessageHiddenAsWritten(s: FStore, me: string, peer: string, input: string, now: int)
    requires Trim(input) != []
    requires forall x :: x in s.messages ==> x.created < now
    requires |RoomMessages(s.messages, RoomId(me, peer))| >= ChatLimit
    ensures var r := SendMessage(s, Some(me), Some(peer), input, now);
            var m := r.messages[|r.messages| - 1];
            m !in RoomViewAsWritten(r.messages, SubscribedRoom(me, peer))
  {
    var m := FMessage(RoomId(me, peer), Trim(input), me, peer, now);
    assert SendMessage(s, Some(me), Some(peer), input, now).messages == s.messages + [m];
    SentIsNewestInRoom(s.messages, m);
    NotInPrefix(RoomMessages(s.messages + [m], m.room), m, ChatLimit);
  }

  /** The only copy of the last element is not in any proper prefix. */
  lemma NotInPrefix<T>(all: seq<T>, m: T, k: nat)
    requires all != [] && all[|all| - 1] == m && multiset(all)[m] == 1
    requires k < |all|
    ensures m !in Take(all, k)
  {
    var n := |all|;
    assert all == all[..n - 1] + [all[n - 1]];
    assert multiset(all) == multiset(all[..n - 1]) + multiset{m};
    assert all[..k] == all[..n - 1][..k];
  }

  /** With the latest 50, a sent message is always in the view, as its
      last entry. */
  lemma SentMessageShownLatest(s: FStore, me: string, peer: string, input: string, now: int)
    requires Trim(input) != []
    requires forall x :: x in s.messages ==> x.created < now
    ensures var r := SendMessage(s, Some(me), Some(peer), input, now);
            var view := RoomViewLatest(r.messages, SubscribedRoom(me, peer));
            view != [] && view[|view| - 1] == r.messages[|r.messages| - 1]
  {
    var m := FMessage(RoomId(me, peer), Trim(input), me, peer, now);
    var r := SendMessage(s, Some(me), Some(peer), input, now);
    assert r.messages == s.messages + [m];
    assert SubscribedRoom(me, peer) == m.room;
    NewestShownLatest(s.messages, m);
  }

  /** A message newer than every stored one is the last entry of its
      room's latest-50 view. */
  lemma NewestShownLatest(msgs: seq<FMessage>, m: FMessage)
    requires forall x :: x in msgs ==> x.created < m.created
    ensures var view := RoomViewLatest(msgs + [m], m.room);
            view != [] && view[|view| - 1] == m
  {
    SentIsNewestInRoom(msgs, m);
    var all := RoomMessages(msgs + [m], m.room);
    LastKeepsLast(all, ChatLimit);
  }

  /** `slice(-n)` with `n > 0` keeps the last element. */
  lemma LastKeepsLast<T>(xs: seq<T>, n: nat)
    requires xs != [] && n > 0
    ensures Last(xs, n) != [] && Last(xs, n)[|Last(xs, n)| - 1] == xs[|xs| - 1]
  {
    var r := Last(xs, n);
    assert xs[|xs| - 1] == (xs[..|xs| - |r|] + r)[|xs| - 1];
  }
}

=== FILE: local.dfy ===
/** The localStorage edition (`script.js`): a user table with sign-up and
    log-in, posts, comments, likes kept as a list of e-mail addresses per
    post, and direct messages, all in one browser's storage. Users are
    identified by e-mail. `getComments` and `setComments` are called but
    not defined in the file; they are taken to read and write a comments
    list in the same way `getPosts` and `setPosts` do for posts. */
module Local {
  import opened Base
  import opened Text
  import opened Rooms
  import opened Views

  /** A stored user: the e-mail and the password's hash. */
  datatype LUser = LUser(email: string, pass: string)

  datatype LPost = LPost(id: string, image: Option<string>, caption: string, user: string, created: int)

  datatype LComment = LComment(postId: string, text: string, author: string, created: int)

  datatype LMessage = LMessage(room: string, text: string, sender: string, receiver: string, created: int)

  /** The keys the edition keeps in localStorage; `session` is the signed-in
      e-mail. */
  datatype LState = LState(
    users: seq<LUser>,
    session: Option<string>,
    posts: seq<LPost>,
    comments: seq<LComment>,
    likes: map<PostId, seq<string>>,
    messages: seq<LMessage>)

  /** No two users share an e-mail address. */
  predicate UniqueEmails(users: seq<LUser>) {
    forall i, j :: 0 <= i < j < |users| ==> users[i].email != users[j].email
  }

  predicate Registered(users: seq<LUser>, email: string) {
    exists i :: 0 <= i < |users| && users[i].email == email
  }

  /** `users.find(x => x.email === email)`. */
  function FindUser(users: seq<LUser>, email: string): (r: Option<LUser>)
    ensures r.None? <==> !Registered(users, email)
    ensures r.Some? ==> r.value in users && r.value.email == email
    ensures r.Some? && UniqueEmails(users) ==> forall u :: u in users && u.email == email ==> u == r.value
  {
    if users == [] then None
    else if users[0].email == email then Some(users[0])
    else
      var r := FindUser(users[1..], email);
      assert Registered(users[1..], email) ==> Registered(users, email) by {
        if Registered(users[1..], email) {
          var i :| 0 <= i < |users[1..]| && users[1..][i].email == email;
          assert users[i + 1].email == email;
        }
      }
      assert Registered(users, email) ==> Registered(users[1..], email) by {
        if Registered(users, email) {
          var i :| 0 <= i < |users| && users[i].email == email;
          assert users[1..][i - 1].email == email;
        }
      }
      r
  }

  datatype AuthError = InvalidInput | EmailTaken | AccountNotFound | InvalidPassword

  datatype Outcome = Ok(state: LState) | Failed(error: AuthError)

  /** The shortest password sign-up accepts. */
  const MinPassword: nat := 6

  /** The sign-up button. The e-mail is trimmed and lower-cased; an empty
      e-mail or a password under six UTF-16 code units is refused, and so is an
      e-mail already registered; otherwise one user is added and signed in.
      `hash` stands for the SHA-256 hex digest. */
  function Signup(s: LState, emailInput: string, password: string, hash: string -> string): (r: Outcome)
    ensures var email := ToLower(Trim(emailInput));
            && (email == [] || Utf16Length(password) < MinPassword ==> r == Failed(InvalidInput))
            && (email != [] && Utf16Length(password) >= MinPassword && Registered(s.users, email) ==> r == Failed(EmailTaken))
            && (email != [] && Utf16Length(password) >= MinPassword && !Registered(s.users, email) ==>
                  r == Ok(s.(users := s.users + [LUser(email, hash(password))], session := Some(email))))
  {
    var email := ToLower(Trim(emailInput));
    if email == [] || password == [] || Utf16Length(password) < MinPassword then Failed(InvalidInput)
    else if FindUser(s.users, email).Some? then Failed(EmailTaken)
    else Ok(s.(users := s.users + [LUser(email, hash(password))], session := Some(email)))
  }

  /** The length test counts UTF-16 code units: three characters outside
      the Basic Multilingual Plane (three emoji, say) make a long enough
      password. */
  lemma AstralPasswordAccepted(s: LState, emailInput: string, password: string, hash: string -> string)
    requires ToLower(Trim(emailInput)) != [] && !Registered(s.users, ToLower(Trim(emailInput)))
    requires |password| == 3 && forall i :: 0 <= i < |password| ==> password[i] as int >= FirstAstral
    ensures Signup(s, emailInput, password, hash).Ok?
  {
  }

  /** Sign-up keeps e-mails unique and adds exactly one user. */
  lemma SignupKeepsEmailsUnique(s: LState, emailInput: string, password: string, hash: string -> string)
    requires UniqueEmails(s.users)
    ensures Signup(s, emailInput, password, hash).Ok? ==>
              && UniqueEmails(Signup(s, emailInput, password, hash).state.users)
              && |Signup(s, emailInput, password, hash).state.users| == |s.users| + 1
              && s.users <= Signup(s, emailInput, password, hash).state.users
  {
    var r := Signup(s, emailInput, password, hash);
    if r.Ok? {
      var email := ToLower(Trim(emailInput));
      var us := r.state.users;
      forall i, j | 0 <= i < j < |us| ensures us[i].email != us[j].email {
        if j == |s.users| {
          assert us[i] == s.users[i];
          assert !Registered(s.users, email);
        }
      }
    }
  }

  /** The log-in button: an unknown e-mail and a wrong password are refused;
      otherwise the session becomes that e-mail. */
  function Login(s: LState, emailInput: string, password: string, hash: string -> string): (r: Outcome)
    ensures var email := ToLower(Trim(emailInput));
            && (!Registered(s.users, email) ==> r == Failed(AccountNotFound))
            && (Registered(s.users, email) && FindUser(s.users, email).value.pass != hash(password) ==> r == Failed(InvalidPassword))
            && (Registered(s.users, email) && FindUser(s.users, email).value.pass == hash(password) ==> r == Ok(s.(session := Some(email))))
            && (r.Ok? ==> r.state == s.(session := Some(email)) && Registered(s.users, email))
  {
    var email := ToLower(Trim(emailInput));
    var u := FindUser(s.users, email);
    if u.None? then Failed(AccountNotFound)
    else if u.value.pass != hash(password) then Failed(InvalidPassword)
    else Ok(s.(session := Some(email)))
  }

  /** Whoever signs up can log in with the same e-mail and password. */
  lemma SignupThenLogin(s: LState, emailInput: string, password: string, hash: string -> string)
    requires UniqueEmails(s.users)
    requires Signup(s, emailInput, password, hash).Ok?
    ensures var t := Signup(s, emailInput, password, hash).state;
            Login(t, emailInput, password, hash) == Ok(t)
  {
    var email := ToLower(Trim(emailInput));
    var t := Signup(s, emailInput, password, hash).state;
    SignupKeepsEmailsUnique(s, emailInput, password, hash);
    var last := |t.users| - 1;
    assert t.users[last] == LUser(email, hash(password));
    assert Registered(t.users, email);
    assert t.users[last] in t.users;
  }

  /** No e-mail appears twice in a like list. */
  predicate NoDup(xs: seq<string>) {
    forall e :: e in xs ==> multiset(xs)[e] == 1
  }

  /** `likes[postId] || []`. */
  function LikeList(s: LState, p: PostId): seq<string> {
    if p in s.likes then s.likes[p] else []
  }

  /** The like button: signed out it only navigates away; otherwise my
      e-mail is spliced out of the post's list when present and pushed
      otherwise, and the list is written back. */
  function ToggleLike(s: LState, p: PostId): (r: LState)
    ensures r == s.(likes := r.likes)
    ensures s.session.None? ==> r == s
    ensures s.session.Some? ==>
              && r.likes == s.likes[p := LikeList(r, p)]
              && (forall e :: e != s.session.value ==> multiset(LikeList(r, p))[e] == multiset(LikeList(s, p))[e])
              && (s.session.value !in LikeList(s, p) ==> LikeList(r, p) == LikeList(s, p) + [s.session.value])
              && (s.session.value in LikeList(s, p) ==>
                    var i := IndexOf(LikeList(s, p), s.session.value);
                    LikeList(r, p) == LikeList(s, p)[..i] + LikeList(s, p)[i + 1..])
    ensures s.session.Some? && NoDup(LikeList(s, p)) ==>
              (s.session.value in LikeList(r, p) <==> s.session.value !in LikeList(s, p))
    ensures NoDup(LikeList(s, p)) ==> NoDup(LikeList(r, p))
  {
    if s.session.None? then s
    else
      var me := s.session.value;
      var arr := LikeList(s, p);
      if me in arr then
        var next := RemoveFirst(arr, me);
        UnlikeKeepsNoDup(arr, me);
        s.(likes := s.likes[p := next])
      else
        var next := arr + [me];
        LikeKeepsNoDup(arr, me);
        s.(likes := s.likes[p := next])
  }

  /** Splicing my e-mail out changes no one else's count and, in a list
      without repeats, leaves no copy of it. */
  lemma UnlikeKeepsNoDup(arr: seq<string>, me: string)
    requires me in arr
    ensures forall e :: e != me ==> multiset(RemoveFirst(arr, me))[e] == multiset(arr)[e]
    ensures NoDup(arr) ==> NoDup(RemoveFirst(arr, me)) && me !in RemoveFirst(arr, me)
  {
    var next := RemoveFirst(arr, me);
    assert multiset(next)[me] == multiset(arr)[me] - 1;
    if NoDup(arr) {
      assert me !in multiset(next);
      forall e | e in next ensures multiset(next)[e] == 1 {
        assert e in multiset(next);
      }
    }
  }

  /** Pushing an e-mail that is not in the list keeps it free of repeats. */
  lemma LikeKeepsNoDup(arr: seq<string>, me: string)
    requires me !in arr
    ensures multiset(arr + [me]) == multiset(arr) + multiset{me}
    ensures NoDup(arr) ==> NoDup(arr + [me])
  {
    var next := arr + [me];
    assert multiset(next) == multiset(arr) + multiset{me};
    if NoDup(arr) {
      forall e | e in next ensures multiset(next)[e] == 1 {
        if e != me { assert e in arr; }
      }
    }
  }

  /** The count shown after a toggle is the new list's length: one more
      when I had not liked the post, one fewer when I had. */
  lemma ToggleLikeCount(s: LState, p: PostId)
    requires s.session.Some? && NoDup(LikeList(s, p))
    ensures var n := |LikeList(ToggleLike(s, p), p)|;
            if s.session.value in LikeList(s, p) then n == |LikeList(s, p)| - 1 else n == |LikeList(s, p)| + 1
  {
    var me := s.session.value;
    var arr := LikeList(s, p);
    var next := LikeList(ToggleLike(s, p), p);
    assert |multiset(next)| == |next| && |multiset(arr)| == |arr|;
    if me in arr {
      assert multiset(next) == multiset(arr) - multiset{me};
    } else {
      assert multiset(next) == multiset(arr) + multiset{me};
    }
  }

  /** Toggling twice restores who likes the post. */
  lemma ToggleLikeTwice(s: LState, p: PostId)
    requires s.session.Some? && NoDup(LikeList(s, p))
    ensures multiset(LikeList(ToggleLike(ToggleLike(s, p), p), p)) == multiset(LikeList(s, p))
  {
    var me := s.session.value;
    var once := ToggleLike(s, p);
    var twice := ToggleLike(once, p);
    assert NoDup(LikeList(once, p)) && NoDup(LikeList(twice, p));
    assert me in LikeList(twice, p) <==> me in LikeList(s, p);
    assert multiset(LikeList(twice, p))[me] == multiset(LikeList(s, p))[me] by {
      if me in LikeList(s, p) {
        assert me in LikeList(twice, p);
      } else {
        assert me !in LikeList(twice, p);
      }
    }
  }

  /** The double tap: within 300 ms and signed in, my e-mail is pushed onto
      the post's list unless it is there; the time of the tap is always
      recorded. */
  function DoubleTap(s: LState, lastTap: int, now: int, p: PostId): (r: (LState, int))
    ensures r.1 == now
    ensures r.0 == s.(likes := r.0.likes)
    ensures now - lastTap < 300 && s.session.Some? ==> s.session.value in LikeList(r.0, p)
    ensures now - lastTap < 300 && s.session.Some? && s.session.value !in LikeList(s, p) ==>
              r.0.likes == s.likes[p := LikeList(s, p) + [s.session.value]]
    ensures !(now - lastTap < 300 && s.session.Some? && s.session.value !in LikeList(s, p)) ==> r.0 == s
    ensures NoDup(LikeList(s, p)) ==> NoDup(LikeList(r.0, p))
  {
    if now - lastTap < 300 && s.session.Some? && s.session.value !in LikeList(s, p) then
      var next := LikeList(s, p) + [s.session.value];
      assert multiset(next) == multiset(LikeList(s, p)) + multiset{s.session.value};
      (s.(likes := s.likes[p := next]), now)
    else (s, now)
  }

  /** A double tap is the toggle when I had not liked the post, and does
      nothing when I had. */
  lemma DoubleTapIsToggleWhenUnliked(s: LState, lastTap: int, now: int, p: PostId)
    requires now - lastTap < 300 && s.session.Some?
    ensures s.session.value !in LikeList(s, p) ==> DoubleTap(s, lastTap, now, p).0 == ToggleLike(s, p)
    ensures s.session.value in LikeList(s, p) ==> DoubleTap(s, lastTap, now, p).0 == s
  {
  }

  /** The delete button: the post, its comments and its like list go;
      nothing else changes. */
  function DeletePost(s: LState, pid: PostId): (r: LState)
    ensures r == s.(posts := r.posts, comments := r.comments, likes := r.likes)
    ensures forall x :: x in r.posts <==> x in s.posts && x.id != pid
    ensures forall c :: c in r.comments <==> c in s.comments && c.postId != pid
    ensures pid !in r.likes
    ensures forall q :: q != pid ==> (q in r.likes <==> q in s.likes) && (q in r.likes ==> r.likes[q] == s.likes[q])
  {
    s.(posts := Filter(s.posts, (x: LPost) => x.id != pid),
       comments := Filter(s.comments, (c: LComment) => c.postId != pid),
       likes := s.likes - {pid})
  }

  /** The other posts keep their order. */
  lemma DeletePostKeepsOthers(s: LState, pid: PostId)
    ensures IsSubsequence(DeletePost(s, pid).posts, s.posts)
    ensures IsSubsequence(DeletePost(s, pid).comments, s.comments)
    ensures forall x :: multiset(DeletePost(s, pid).posts)[x] == if x.id == pid then 0 else multiset(s.posts)[x]
    ensures forall c :: multiset(DeletePost(s, pid).comments)[c] == if c.postId == pid then 0 else multiset(s.comments)[c]
  {
    FilterIsSubsequence(s.posts, (x: LPost) => x.id != pid);
    FilterIsSubsequence(s.comments, (c: LComment) => c.postId != pid);
    FilterCounts(s.posts, (x: LPost) => x.id != pid);
    FilterCounts(s.comments, (c: LComment) => c.postId != pid);
  }

  /** `!image_url`: no file, or an empty data URL. */
  predicate NoImage(image: Option<string>) {
    image.None? || image.value == []
  }

  /** The share button: signed out it only navigates away; a blank caption
      with no image creates nothing; otherwise one post by me, with the
      trimmed caption, is appended. `id` stands for `crypto.randomUUID()`. */
  function SubmitPost(s: LState, captionInput: string, image: Option<string>, id: string, now: int): (r: LState)
    ensures r == s.(posts := r.posts)
    ensures s.session.None? || (Trim(captionInput) == [] && NoImage(image)) ==> r == s
    ensures s.session.Some? && !(Trim(captionInput) == [] && NoImage(image)) ==>
              r.posts == s.posts + [LPost(id, image, Trim(captionInput), s.session.value, now)]
  {
    if s.session.None? then s
    else
      var caption := Trim(captionInput);
      if caption == [] && NoImage(image) then s
      else s.(posts := s.posts + [LPost(id, image, caption, s.session.value, now)])
  }

  /** A post that is created belongs to the signed-in user and has content. */
  lemma SubmittedPostHasContent(s: LState, captionInput: string, image: Option<string>, id: string, now: int)
    requires |SubmitPost(s, captionInput, image, id, now).posts| > |s.posts|
    ensures var x := SubmitPost(s, captionInput, image, id, now).posts[|s.posts|];
            Some(x.user) == s.session && (x.caption != [] || !NoImage(x.image))
  {
  }

  function CommentTime(c: LComment): int { c.created }

  /** The filter `c => c.postId === p`. */
  function OnPost(p: PostId): LComment -> bool {
    (c: LComment) => c.postId == p
  }

  /** A post's comments, oldest first; the "View all" button shows exactly
      this list. Each of the post's comments appears as often as it is
      stored, and comments with the same time keep their stored order, as
      the stable `sort` leaves them. */
  function PostComments(s: LState, p: PostId): (r: seq<LComment>)
    ensures SortedBy(r, CommentTime)
    ensures forall c :: c in r <==> c in s.comments && c.postId == p
    ensures multiset(r) == multiset(Filter(s.comments, OnPost(p)))
    ensures forall t :: Filter(r, KeyIs(CommentTime, t)) == Filter(Filter(s.comments, OnPost(p)), KeyIs(CommentTime, t))
  {
    var f := Filter(s.comments, OnPost(p));
    var r := SortBy(f, CommentTime);
    SortByMembers(f, CommentTime);
    SortByStableAll(f, CommentTime);
    r
  }

  /** `renderComments`: more than two comments show the first two and
      "View all N comments"; otherwise all of them. */
  function RenderComments(s: LState, p: PostId): (r: Shown<LComment>)
    ensures var all := PostComments(s, p);
            && (|all| > 2 ==> r == Shown(all[..2], Some(|all|)))
            && (|all| <= 2 ==> r == Shown(all, None))
  {
    Preview(PostComments(s, p), Some(2))
  }

  /** The comment button: signed out it only navigates away; blank text
      creates nothing; otherwise one comment by me is appended. */
  function SendComment(s: LState, p: PostId, input: string, now: int): (r: LState)
    ensures r == s.(comments := r.comments)
    ensures s.session.None? || Trim(input) == [] ==> r == s
    ensures s.session.Some? && Trim(input) != [] ==>
              r.comments == s.comments + [LComment(p, Trim(input), s.session.value, now)]
  {
    if s.session.None? then s
    else
      var text := Trim(input);
      if text == [] then s else s.(comments := s.comments + [LComment(p, text, s.session.value, now)])
  }

  /** A sent comment is among its post's comments afterwards, one more
      than before, and no other post's comments change. */
  lemma SentCommentListed(s: LState, p: PostId, input: string, now: int, q: PostId)
    requires s.session.Some? && Trim(input) != []
    ensures LComment(p, Trim(input), s.session.value, now) in PostComments(SendComment(s, p, input, now), p)
    ensures q != p ==> Filter(SendComment(s, p, input, now).comments, (c: LComment) => c.postId == q)
                       == Filter(s.comments, (c: LComment) => c.postId == q)
    ensures |PostComments(SendComment(s, p, input, now), p)| == |PostComments(s, p)| + 1
  {
    var c := LComment(p, Trim(input), s.session.value, now);
    FilterSnoc(s.comments, c, (x: LComment) => x.postId == q);
    FilterSnoc(s.comments, c, (x: LComment) => x.postId == p);
  }

  /** The user list of the chat page: everyone when signed out, everyone
      but me when signed in. */
  function UsersList(users: seq<LUser>, me: Option<string>): (r: seq<LUser>)
    ensures me.None? ==> r == users
    ensures me.Some? ==> forall u :: u in r <==> u in users && u.email != me.value
  {
    if me.Some? then Filter(users, NotMine(me.value)) else users
  }

  /** The filter `u => u.email !== me`. */
  function NotMine(me: string): LUser -> bool {
    (u: LUser) => u.email != me
  }

  /** With unique e-mails the signed-in user's list is one shorter than the
      table when I am registered, and the same length otherwise. */
  lemma UsersListLength(users: seq<LUser>, me: string)
    requires UniqueEmails(users)
    ensures |UsersList(users, Some(me))| == |users| - (if Registered(users, me) then 1 else 0)
    ensures IsSubsequence(UsersList(users, Some(me)), users)
    ensures forall u :: multiset(UsersList(users, Some(me)))[u] == if u.email == me then 0 else multiset(users)[u]
  {
    FilterIsSubsequence(users, NotMine(me));
    FilterCounts(users, NotMine(me));
    DropMineLength(users, me);
  }

  /** With unique e-mails at most one entry is mine, so the filter drops
      exactly one entry when I am registered and none otherwise. */
  lemma {:induction false} DropMineLength(users: seq<LUser>, me: string)
    requires UniqueEmails(users)
    ensures |Filter(users, NotMine(me))| == |users| - (if Registered(users, me) then 1 else 0)
  {
    if users != [] {
      var rest := users[1..];
      assert UniqueEmails(rest);
      DropMineLength(rest, me);
      FilterPrepend(users[0], rest, NotMine(me));
      assert users == [users[0]] + rest;
      assert Registered(users, me) <==> users[0].email == me || Registered(rest, me) by {
        if Registered(rest, me) {
          var i :| 0 <= i < |rest| && rest[i].email == me;
          assert users[i + 1].email == me;
        }
        if Registered(users, me) && users[0].email != me {
          var i :| 0 <= i < |users| && users[i].email == me;
          assert rest[i - 1].email == me;
        }
      }
    }
  }

  function MessageTime(m: LMessage): int { m.created }

  /** The messages of one room, oldest first. */
  function RoomMessages(msgs: seq<LMessage>, room: string): (r: seq<LMessage>)
    ensures SortedBy(r, MessageTime)
    ensures forall m :: m in r <==> m in msgs && m.room == room
    ensures multiset(r) == multiset(Filter(msgs, InRoom(room)))
    ensures forall t :: Filter(r, KeyIs(MessageTime, t)) == Filter(Filter(msgs, InRoom(room)), KeyIs(MessageTime, t))
  {
    var f := Filter(msgs, InRoom(room));
    var r := SortBy(f, MessageTime);
    SortByMembers(f, MessageTime);
    SortByStableAll(f, MessageTime);
    r
  }

  /** The filter `m => m.room === room`. */
  function InRoom(room: string): LMessage -> bool {
    (m: LMessage) => m.room == room
  }

  /** `renderChat`: no peer shows nothing; otherwise the messages of the
      pair's room, oldest first. Without a session and with a peer the
      handler fails on `me.email` and leaves the list as it was (`None`). */
  function RenderChat(s: LState, peer: Option<string>): (r: Option<seq<LMessage>>)
    ensures peer.None? ==> r == Some([])
    ensures peer.Some? && s.session.None? ==> r.None?
    ensures peer.Some? && s.session.Some? ==>
              && r.Some? && SortedBy(r.value, MessageTime)
              && (forall m :: m in r.value <==> m in s.messages && m.room == RoomId(s.session.value, peer.value))
              && multiset(r.value) == multiset(Filter(s.messages, InRoom(RoomId(s.session.value, peer.value))))
  {
    if peer.None? then Some([])
    else if s.session.None? then None
    else Some(RoomMessages(s.messages, RoomId(s.session.value, peer.value)))
  }

  /** The chat form: signed in with a peer and a non-blank text, one message
      in the pair's room is appended; otherwise nothing. Sending to oneself
      is not refused. */
  function SendMessage(s: LState, peer: Option<string>, input: string, now: int): (r: LState)
    ensures r == s.(messages := r.messages)
    ensures s.session.None? || peer.None? || Trim(input) == [] ==> r == s
    ensures s.session.Some? && peer.Some? && Trim(input) != [] ==>
              r.messages == s.messages + [LMessage(RoomId(s.session.value, peer.value), Trim(input), s.session.value, peer.value, now)]
  {
    if s.session.None? || peer.None? then s
    else
      var text := Trim(input);
      if text == [] then s
      else s.(messages := s.messages + [LMessage(RoomId(s.session.value, peer.value), text, s.session.value, peer.value, now)])
  }

  /** A sent message shows in the sender's chat with that peer, and in the
      peer's chat with the sender once the peer is signed in. */
  lemma SentMessageRendered(s: LState, peer: string, input: string, now: int)
    requires s.session.Some? && Trim(input) != []
    ensures var r := SendMessage(s, Some(peer), input, now);
            var m := r.messages[|r.messages| - 1];
            && m in RenderChat(r, Some(peer)).value
            && m in RenderChat(r.(session := Some(peer)), Some(s.session.value)).value
  {
    RoomIdSymmetric(s.session.value, peer);
  }
}

=== FILE: names.dfy ===
/** `displayName(user)`: the name shown for a post's author or a chat peer.
    The stored username, trimmed, wins; without one the last four characters
    of the record id give `User-xxxx`; without an id the name is `User`. */
module Names {
  import opened Base
  import opened Text
  import opened Username

  /** The two fields `displayName` reads from a user record. */
  datatype Profile = Profile(id: Option<string>, username: Option<string>)

  const AnonymousName: string := "User"
  const FallbackPrefix: string := "User-"

  /** `(user?.username || '').trim()` */
  function StoredName(user: Option<Profile>): string {
    if user.Some? then Trim(user.value.username.GetOr([])) else []
  }

  /** `(user?.id || '').toString()` */
  function IdOf(user: Option<Profile>): string {
    if user.Some? then user.value.id.GetOr([]) else []
  }

  /** The shown name is never empty and never starts with white space; it is
      the trimmed username when there is one, otherwise `User-` and the id's
      last (up to) four characters, otherwise `User`. */
  function DisplayName(user: Option<Profile>): (r: string)
    ensures r != [] && !IsSpace(r[0])
    ensures StoredName(user) != [] ==> r == StoredName(user)
    ensures StoredName(user) == [] && IdOf(user) == [] ==> r == AnonymousName
    ensures StoredName(user) == [] && IdOf(user) != [] ==>
              && FallbackPrefix <= r
              && |r| == |FallbackPrefix| + Min(4, |IdOf(user)|)
              && IdOf(user) == IdOf(user)[..|IdOf(user)| - (|r| - 5)] + r[5..]
  {
    var uname := StoredName(user);
    if uname != [] then
      TrimEnds(user.value.username.GetOr([]));
      uname
    else
      var id := IdOf(user);
      if id != [] then
        var r := FallbackPrefix + Last(id, 4);
        assert r[5..] == Last(id, 4);
        r
      else AnonymousName
  }

  /** A name the signup flow stored (a non-empty `sanitizeUsername` result)
      is shown exactly as stored, whatever the id. */
  lemma {:induction false} DisplayNameOfSanitized(id: Option<string>, raw: string)
    requires SanitizeUsername(raw) != []
    ensures DisplayName(Some(Profile(id, Some(SanitizeUsername(raw))))) == SanitizeUsername(raw)
  {
    var u := SanitizeUsername(raw);
    assert Trim(u) == u by {
      var first, last := u[0], u[|u| - 1];
      assert IsAllowed(first) && IsAllowed(last);
      AllowedNotSpace(first);
      AllowedNotSpace(last);
      TrimNoop(u);
    }
    assert StoredName(Some(Profile(id, Some(u)))) == u;
  }

  lemma AllowedNotSpace(c: char)
    requires IsAllowed(c)
    ensures !IsSpace(c)
  {
  }

  /** The two fallbacks begin with an upper-case `U`, which no sanitized
      username contains, so a fallback name is never mistaken for a real one. */
  lemma FallbackNeverSanitized(user: Option<Profile>, raw: string)
    requires StoredName(user) == []
    ensures DisplayName(user) != SanitizeUsername(raw)
  {
    var r := DisplayName(user);
    assert r[0] == 'U';
    var u := SanitizeUsername(raw);
    if u != [] {
      assert IsAllowed(u[0]);
    }
  }
}

=== FILE: pocketbase.dfy ===
/** The social-state operations of the PocketBase editions (the multi-page
    `js/` pages and the single-file `script.pocketbase.js`) over an abstract
    store of the four collections they touch. A record's server-side id and
    the SDK calls themselves are not modelled; a create appends a record, a
    delete removes one. */
module PocketBase {
  import opened Base
  import opened Text
  import opened Rooms
  import opened Username
  import opened Names

  datatype Post = Post(id: PostId, user: UserId, caption: string)

  datatype Like = Like(post: PostId, user: UserId)

  datatype Comment = Comment(post: PostId, user: UserId, text: string, created: int)

  datatype Message = Message(room: string, text: string, sender: UserId, receiver: UserId, created: int)

  datatype Store = Store(posts: seq<Post>, likes: seq<Like>, comments: seq<Comment>, messages: seq<Message>)

  predicate HasLiked(s: Store, p: PostId, u: UserId) {
    Like(p, u) in s.likes
  }

  /** Nothing on the client keeps a user from having two like records on
      one post; the toggle behaves as a toggle only while there is at most
      one. */
  predicate AtMostOneLike(s: Store) {
    forall l :: l in s.likes ==> multiset(s.likes)[l] == 1
  }

  /** The like button (`toggleLike` in the single-file edition): signed out
      it does nothing; otherwise it deletes the first like record of mine
      on the post if there is one, and creates one if there is none. */
  function ToggleLike(s: Store, me: Option<UserId>, p: PostId): (r: Store)
    ensures me.None? ==> r == s
    ensures r == s.(likes := r.likes)
    ensures me.Some? && AtMostOneLike(s) ==> (HasLiked(r, p, me.value) <==> !HasLiked(s, p, me.value))
    ensures me.Some? ==> forall l :: l != Like(p, me.value) ==> multiset(r.likes)[l] == multiset(s.likes)[l]
    ensures AtMostOneLike(s) ==> AtMostOneLike(r)
  {
    if me.None? then s
    else
      var mine := Like(p, me.value);
      if mine in s.likes then
        var likes := RemoveFirst(s.likes, mine);
        UnlikeOne(s.likes, mine);
        s.(likes := likes)
      else
        var likes := s.likes + [mine];
        LikeOne(s.likes, mine);
        s.(likes := likes)
  }

  /** Deleting one record of mine lowers only its count, and keeps every
      record single when they all were. */
  lemma UnlikeOne(likes: seq<Like>, mine: Like)
    requires mine in likes
    ensures forall l :: l != mine ==> multiset(RemoveFirst(likes, mine))[l] == multiset(likes)[l]
    ensures multiset(RemoveFirst(likes, mine))[mine] == multiset(likes)[mine] - 1
    ensures (forall l :: l in likes ==> multiset(likes)[l] == 1) ==>
              && mine !in RemoveFirst(likes, mine)
              && forall l :: l in RemoveFirst(likes, mine) ==> multiset(RemoveFirst(likes, mine))[l] == 1
  {
    var r := RemoveFirst(likes, mine);
    assert multiset(r) == multiset(likes) - multiset{mine};
    forall l | l in r ensures l in multiset(r) && multiset(r)[l] <= multiset(likes)[l] {
    }
  }

  /** Creating a record that was missing adds one copy of it. */
  lemma LikeOne(likes: seq<Like>, mine: Like)
    requires mine !in likes
    ensures multiset(likes + [mine]) == multiset(likes) + multiset{mine}
    ensures (forall l :: l in likes ==> multiset(likes)[l] == 1) ==>
              forall l :: l in likes + [mine] ==> multiset(likes + [mine])[l] == 1
  {
    assert multiset(likes + [mine]) == multiset(likes) + multiset{mine};
  }

  /** Toggling twice gives back the same like records. */
  lemma ToggleLikeTwice(s: Store, me: UserId, p: PostId)
    requires AtMostOneLike(s)
    ensures multiset(ToggleLike(ToggleLike(s, Some(me), p), Some(me), p).likes) == multiset(s.likes)
  {
    var mine := Like(p, me);
    var once := ToggleLike(s, Some(me), p);
    var twice := ToggleLike(once, Some(me), p);
    assert multiset(twice.likes)[mine] == multiset(s.likes)[mine];
  }

  /** Without the at-most-one invariant the button is not a toggle: with two
      like records of mine, a click leaves the post still liked. */
  lemma DuplicateLikeSurvivesToggle(p: PostId, me: UserId)
    ensures var s := Store([], [Like(p, me), Like(p, me)], [], []);
            HasLiked(ToggleLike(s, Some(me), p), p, me)
  {
    var s := Store([], [Like(p, me), Like(p, me)], [], []);
    assert ToggleLike(s, Some(me), p).likes == [Like(p, me)];
  }

  /** Create my like on the post unless one exists. */
  function EnsureLiked(s: Store, me: UserId, p: PostId): (r: Store)
    ensures r == s.(likes := r.likes)
    ensures HasLiked(r, p, me)
    ensures HasLiked(s, p, me) ==> r == s
    ensures !HasLiked(s, p, me) ==> multiset(r.likes) == multiset(s.likes) + multiset{Like(p, me)}
    ensures AtMostOneLike(s) ==> AtMostOneLike(r)
  {
    if Like(p, me) in s.likes then s
    else
      var likes := s.likes + [Like(p, me)];
      assert multiset(likes) == multiset(s.likes) + multiset{Like(p, me)};
      s.(likes := likes)
  }

  /** Ensuring a like twice is ensuring it once. */
  lemma EnsureLikedIdempotent(s: Store, me: UserId, p: PostId)
    ensures EnsureLiked(EnsureLiked(s, me, p), me, p) == EnsureLiked(s, me, p)
  {
  }

  /** Two taps less than this many milliseconds apart are a double tap. */
  const TapWindow: int := 300

  /** The store after a tap on a post's media, and the new `lastTap`. */
  datatype Tap = Tap(store: Store, lastTap: int)

  /** The multi-page feed's double tap. Within the window and signed in it
      ensures my like; within the window and signed out it returns before
      `lastTap = now`, so the time of that tap is not recorded. */
  function DoubleTapFeed(s: Store, lastTap: int, now: int, me: Option<UserId>, p: PostId): (r: Tap)
    ensures now - lastTap < TapWindow && me.None? ==> r == Tap(s, lastTap)
    ensures !(now - lastTap < TapWindow && me.None?) ==> r.lastTap == now
    ensures now - lastTap < TapWindow && me.Some? ==> r.store == EnsureLiked(s, me.value, p)
    ensures now - lastTap >= TapWindow ==> r.store == s
  {
    if now - lastTap < TapWindow then
      if me.None? then Tap(s, lastTap) else Tap(EnsureLiked(s, me.value, p), now)
    else Tap(s, now)
  }

  /** The single-file edition's double tap: the same effect on the store,
      and `lastTap` always becomes `now`. */
  function DoubleTapSingle(s: Store, lastTap: int, now: int, me: Option<UserId>, p: PostId): (r: Tap)
    ensures r.lastTap == now
    ensures now - lastTap < TapWindow && me.Some? ==> r.store == EnsureLiked(s, me.value, p)
    ensures !(now - lastTap < TapWindow && me.Some?) ==> r.store == s
  {
    if now - lastTap < TapWindow && me.Some? then Tap(EnsureLiked(s, me.value, p), now) else Tap(s, now)
  }

  /** A double tap never unlikes and never creates a second like; the two
      editions leave the same store and differ only in `lastTap`. */
  lemma DoubleTapOnlyLikes(s: Store, lastTap: int, now: int, me: Option<UserId>, p: PostId)
    ensures var r := DoubleTapFeed(s, lastTap, now, me, p);
            && (forall u :: HasLiked(s, p, u) ==> HasLiked(r.store, p, u))
            && (AtMostOneLike(s) ==> AtMostOneLike(r.store))
            && r.store == DoubleTapSingle(s, lastTap, now, me, p).store
  {
  }

  /** The likes a post's subscription handler lists. */
  function PostLikes(s: Store, p: PostId): seq<Like> {
    Filter(s.likes, (l: Like) => l.post == p)
  }

  /** `!!(me && list.some(l => l.user === me.id))` */
  predicate Liked(list: seq<Like>, me: Option<UserId>)
  {
    me.Some? && exists i :: 0 <= i < |list| && list[i].user == me.value
  }

  /** The button says "Liked" exactly when the store holds my like. */
  lemma LikedMatchesStore(s: Store, p: PostId, me: UserId)
    ensures Liked(PostLikes(s, p), Some(me)) <==> HasLiked(s, p, me)
  {
    var list := PostLikes(s, p);
    if HasLiked(s, p, me) {
      assert Like(p, me) in list;
      var i :| 0 <= i < |list| && list[i] == Like(p, me);
    }
    if Liked(list, Some(me)) {
      var i :| 0 <= i < |list| && list[i].user == me;
      assert list[i] in list;
    }
  }

  /** The comment send button: the text is trimmed; empty text, or no one
      signed in, creates nothing; otherwise one comment by me is created. */
  function SendComment(s: Store, me: Option<UserId>, p: PostId, input: string, now: int): (r: Store)
    ensures r == s.(comments := r.comments)
    ensures me.None? || Trim(input) == [] ==> r == s
    ensures me.Some? && Trim(input) != [] ==>
              r.comments == s.comments + [Comment(p, me.value, Trim(input), now)]
  {
    var text := Trim(input);
    if text == [] || me.None? then s
    else s.(comments := s.comments + [Comment(p, me.value, text, now)])
  }

  /** A sent comment joins the end of its post's comment list and leaves
      every other post's list alone. */
  lemma SentCommentJoinsItsPost(s: Store, me: UserId, p: PostId, input: string, now: int, q: PostId)
    requires Trim(input) != []
    ensures var r := SendComment(s, Some(me), p, input, now);
            Filter(r.comments, (c: Comment) => c.post == q)
              == Filter(s.comments, (c: Comment) => c.post == q)
                 + (if q == p then [Comment(p, me, Trim(input), now)] else [])
  {
    FilterSnoc(s.comments, Comment(p, me, Trim(input), now), (c: Comment) => c.post == q);
  }

  /** The delete cascade: every comment and like of the post, then the post. */
  function DeletePost(s: Store, pid: PostId): (r: Store)
    ensures r.messages == s.messages
    ensures forall c :: c in r.comments <==> c in s.comments && c.post != pid
    ensures forall l :: l in r.likes <==> l in s.likes && l.post != pid
    ensures forall x :: x in r.posts <==> x in s.posts && x.id != pid
  {
    Store(
      Filter(s.posts, (x: Post) => x.id != pid),
      Filter(s.likes, (l: Like) => l.post != pid),
      Filter(s.comments, (c: Comment) => c.post != pid),
      s.messages)
  }

  /** Deleting keeps everything else in its order, and deleting again
      changes nothing. */
  lemma DeletePostKeepsOrder(s: Store, pid: PostId)
    ensures IsSubsequence(DeletePost(s, pid).posts, s.posts)
    ensures IsSubsequence(DeletePost(s, pid).likes, s.likes)
    ensures IsSubsequence(DeletePost(s, pid).comments, s.comments)
    ensures DeletePost(DeletePost(s, pid), pid) == DeletePost(s, pid)
  {
    FilterIsSubsequence(s.posts, (x: Post) => x.id != pid);
    FilterIsSubsequence(s.likes, (l: Like) => l.post != pid);
    FilterIsSubsequence(s.comments, (c: Comment) => c.post != pid);
    FilterIdempotent(s.posts, (x: Post) => x.id != pid);
    FilterIdempotent(s.likes, (l: Like) => l.post != pid);
    FilterIdempotent(s.comments, (c: Comment) => c.post != pid);
  }

  /** The friend list: signed out it is empty; otherwise it is the user
      list without the records whose id is mine, in the same order. */
  function Friends(users: seq<Profile>, me: Option<UserId>): (r: seq<Profile>)
    ensures me.None? ==> r == []
    ensures me.Some? ==> forall u :: u in r <==> u in users && u.id != Some(me.value)
  {
    if me.None? then [] else Filter(users, (u: Profile) => u.id != Some(me.value))
  }

  /** Every other user is listed as often as in the user list, in order,
      and the signed-in user not at all. */
  lemma FriendsExactlyOthers(users: seq<Profile>, me: UserId)
    ensures IsSubsequence(Friends(users, Some(me)), users)
    ensures forall u :: multiset(Friends(users, Some(me)))[u] == if u.id == Some(me) then 0 else multiset(users)[u]
  {
    FilterIsSubsequence(users, (u: Profile) => u.id != Some(me));
    FilterCounts(users, (u: Profile) => u.id != Some(me));
  }

  /** The chat form's guards: signed in, a peer selected, a non-blank text,
      and a peer other than me. */
  predicate Sendable(me: Option<UserId>, peer: Option<UserId>, input: string) {
    me.Some? && peer.Some? && Trim(input) != [] && peer.value != me.value
  }

  /** The chat form: when a guard fails nothing is written; otherwise
      exactly one message with the trimmed text, the canonical room, me as
      sender and the peer as receiver. */
  function SendMessage(s: Store, me: Option<UserId>, peer: Option<UserId>, input: string, now: int): (r: Store)
    ensures r == s.(messages := r.messages)
    ensures !Sendable(me, peer, input) ==> r == s
    ensures Sendable(me, peer, input) ==>
              r.messages == s.messages + [Message(RoomId(me.value, peer.value), Trim(input), me.value, peer.value, now)]
  {
    if me.None? || peer.None? then s
    else
      var text := Trim(input);
      if text == [] then s
      else if peer.value == me.value then s
      else s.(messages := s.messages + [Message(RoomId(me.value, peer.value), text, me.value, peer.value, now)])
  }

  /** The chat subscription's filter: the room of the pair, and me as
      sender or receiver. */
  predicate InRoomOf(m: Message, me: UserId, peer: UserId) {
    m.room == RoomId(me, peer) && (m.sender == me || m.receiver == me)
  }

  /** A message is drawn on the right (`out`) exactly when I sent it. */
  predicate IsOutgoing(m: Message, me: UserId) {
    m.sender == me
  }

  /** A sent message reaches both ends of the conversation: it passes the
      sender's and the receiver's room filter, it is outgoing for the
      sender and incoming for the receiver. */
  lemma SentMessageSeenByBoth(s: Store, me: UserId, peer: UserId, input: string, now: int)
    requires Sendable(Some(me), Some(peer), input)
    ensures var r := SendMessage(s, Some(me), Some(peer), input, now);
            var m := r.messages[|r.messages| - 1];
            && InRoomOf(m, me, peer) && InRoomOf(m, peer, me)
            && IsOutgoing(m, me) && !IsOutgoing(m, peer)
  {
    RoomIdSymmetric(me, peer);
  }

  /** The default bio every PocketBase signup and profile save falls back to. */
  const DefaultBio: string := "Hey there! I'm using SastraDaily."

  /** What the single-file signup sends to `users.create`. */
  datatype SignupRequest = SignupRequest(email: string, bio: string, username: Option<string>)

  /** The signup form: the email is trimmed and lower-cased; the username
      is `sanitizeUsername(raw.trim())` and is sent only when non-empty. */
  function SignupRequestFor(emailInput: string, rawUsername: string): (r: SignupRequest)
    ensures r.email == ToLower(Trim(emailInput))
    ensures r.bio == DefaultBio
    ensures r.username.Some? <==> SanitizeUsername(rawUsername) != []
    ensures r.username.Some? ==> r.username.value == SanitizeUsername(rawUsername)
  {
    SanitizeIgnoresTrim(rawUsername);
    var username := SanitizeUsername(Trim(rawUsername));
    SignupRequest(ToLower(Trim(emailInput)), DefaultBio, if username != [] then Some(username) else None)
  }

  /** The follow-up after signup: when a username was sent and the record
      read back (`fetched`, `None` when the read failed) holds a different
      one, the desired username is written again. The result is the update
      made, if any. */
  function UsernameCorrection(rawUsername: string, fetched: Option<Option<string>>): (r: Option<string>)
    ensures r.Some? ==> r.value == SanitizeUsername(rawUsername) && r.value != []
    ensures r.Some? <==> SanitizeUsername(rawUsername) != [] && fetched.Some?
                         && fetched.value != Some(SanitizeUsername(rawUsername))
  {
    SanitizeIgnoresTrim(rawUsername);
    var username := SanitizeUsername(Trim(rawUsername));
    if username == [] then None
    else
      var desired := SanitizeUsername(Trim(rawUsername));
      if fetched.Some? && desired != [] && fetched.value != Some(desired) then Some(desired) else None
  }

  /** After the follow-up the stored username is the sanitized one whenever
      one was sent and the record could be read back. */
  lemma SignupStoresSanitized(rawUsername: string, stored: Option<string>)
    requires SanitizeUsername(rawUsername) != []
    ensures var fix := UsernameCorrection(rawUsername, Some(stored));
            (if fix.Some? then fix else stored) == Some(SanitizeUsername(rawUsername))
  {
  }
}

=== FILE: profile.dfy ===
/** The profile page of the multi-page PocketBase edition, with the
    single-file edition's variant of the profile save: deleting one's own
    post, the optimistic post counter, the bio and username save, the bio
    preview and the realtime filter on post events. */
module ProfilePage {
  import opened Base
  import opened Text
  import opened Username
  import opened PocketBase

  /** The grid's delete button: with no post id on the button, or when the
      confirm dialog is declined, nothing is deleted; otherwise the post's
      comments, its likes and the post itself are removed. */
  function ProfileDelete(s: Store, pid: Option<PostId>, confirmed: bool): (r: Store)
    ensures pid.None? || pid == Some([]) || !confirmed ==> r == s
    ensures pid.Some? && pid.value != [] && confirmed ==>
              && r.messages == s.messages
              && (forall c :: c in r.comments <==> c in s.comments && c.post != pid.value)
              && (forall l :: l in r.likes <==> l in s.likes && l.post != pid.value)
              && (forall x :: x in r.posts <==> x in s.posts && x.id != pid.value)
  {
    if pid.None? || pid.value == [] then s
    else if !confirmed then s
    else DeletePost(s, pid.value)
  }

  /** A confirmed delete of a post nothing refers to leaves the store as it was. */
  lemma DeleteUnreferencedIsNoop(s: Store, pid: PostId)
    requires pid != []
    requires forall x :: x in s.posts ==> x.id != pid
    requires forall l :: l in s.likes ==> l.post != pid
    requires forall c :: c in s.comments ==> c.post != pid
    ensures ProfileDelete(s, Some(pid), true) == s
  {
    FilterAll(s.posts, (x: Post) => x.id != pid);
    FilterAll(s.likes, (l: Like) => l.post != pid);
    FilterAll(s.comments, (c: Comment) => c.post != pid);
  }

  /** The optimistic counter after a delete:
      `String(Math.max(0, (parseInt(text || '0', 10) || 0) - 1))`. */
  function DecrementCount(text: string): (r: string)
    ensures |r| >= 1 && forall i :: 0 <= i < |r| ==> IsDigit(r[i])
    ensures ParseIntOrZero(r) == if ParseIntOrZero(if text == [] then "0" else text) <= 0 then 0
                                 else ParseIntOrZero(if text == [] then "0" else text) - 1
  {
    var n := ParseIntOrZero(if text == [] then "0" else text);
    var m: nat := if n - 1 < 0 then 0 else n - 1;
    ParseNatToString(m, []);
    assert NatToString(m) + [] == NatToString(m);
    NatToString(m)
  }

  /** A counter showing `n` shows `n - 1` after a delete, and 0 stays 0. */
  lemma DecrementCountOfNumber(n: nat)
    ensures DecrementCount(NatToString(n)) == NatToString(if n == 0 then 0 else n - 1)
  {
    ParseNatToString(n, []);
    assert NatToString(n) + [] == NatToString(n);
  }

  /** Text that is not a number reads as 0, so the counter then shows 0. */
  lemma DecrementCountOfText(text: string)
    requires text != []
    requires forall i :: 0 <= i < |text| ==> !IsDigit(text[i])
    ensures DecrementCount(text) == "0"
  {
    var t := TrimStart(text);
    if t != [] && (t[0] == '-' || t[0] == '+') {
      assert t[1..] == [] || !IsDigit(t[1..][0]) by {
        if t[1..] != [] { assert t[1..][0] == text[|text| - |t| + 1]; }
      }
    } else {
      assert t == [] || !IsDigit(t[0]) by {
        if t != [] { assert t[0] == text[|text| - |t|]; }
      }
    }
    assert DigitChar(0) == '0';
  }

  /** The fields a profile save sends: the bio, and the username when one
      is sent. */
  datatype ProfileUpdate = ProfileUpdate(bio: string, username: Option<string>)

  /** The bio a save stores: the trimmed input, or the default text when
      that is empty. */
  function SavedBio(bioInput: string): (r: string)
    ensures r != []
    ensures Trim(bioInput) != [] ==> r == Trim(bioInput)
    ensures Trim(bioInput) == [] ==> r == DefaultBio
  {
    var bio := Trim(bioInput);
    if bio != [] then bio else DefaultBio
  }

  /** The multi-page save: the username is sent, trimmed, only when the
      username field exists and is not blank. */
  function SavePayload(bioInput: string, usernameInput: Option<string>): (r: ProfileUpdate)
    ensures r.bio == SavedBio(bioInput)
    ensures r.username.Some? <==> usernameInput.Some? && Trim(usernameInput.value) != []
    ensures r.username.Some? ==> r.username.value == Trim(usernameInput.value)
  {
    var username := if usernameInput.Some? then Trim(usernameInput.value) else [];
    ProfileUpdate(SavedBio(bioInput), if username != [] then Some(username) else None)
  }

  /** The single-file save: the username field is sanitized first and sent
      only when something is left. */
  function SavePayloadSanitized(bioInput: string, usernameInput: Option<string>): (r: ProfileUpdate)
    ensures r.bio == SavedBio(bioInput)
    ensures r.username.Some? <==> usernameInput.Some? && SanitizeUsername(usernameInput.value) != []
    ensures r.username.Some? ==> r.username.value == SanitizeUsername(usernameInput.value)
  {
    var username := if usernameInput.Some? then SanitizeUsername(Trim(usernameInput.value)) else [];
    assert usernameInput.Some? ==> SanitizeUsername(Trim(usernameInput.value)) == SanitizeUsername(usernameInput.value) by {
      if usernameInput.Some? { SanitizeIgnoresTrim(usernameInput.value); }
    }
    ProfileUpdate(SavedBio(bioInput), if username != [] then Some(username) else None)
  }

  /** The two editions agree on the bio, and a username the single-file
      edition sends is the sanitized form of the one the multi-page edition
      sends. */
  lemma SaveEditionsAgree(bioInput: string, usernameInput: Option<string>)
    ensures SavePayloadSanitized(bioInput, usernameInput).bio == SavePayload(bioInput, usernameInput).bio
    ensures SavePayloadSanitized(bioInput, usernameInput).username.Some? ==>
              && SavePayload(bioInput, usernameInput).username.Some?
              && SavePayloadSanitized(bioInput, usernameInput).username.value
                   == SanitizeUsername(SavePayload(bioInput, usernameInput).username.value)
  {
    var p := SavePayload(bioInput, usernameInput);
    var q := SavePayloadSanitized(bioInput, usernameInput);
    if q.username.Some? {
      var raw := usernameInput.value;
      SanitizeIgnoresTrim(raw);
    }
  }

  /** What the bio line shows while typing: the trimmed input, or the
      default text for a blank or missing input. */
  function BioPreview(input: Option<string>): (r: string)
    ensures r != []
    ensures input.Some? && Trim(input.value) != [] ==> r == Trim(input.value)
    ensures input.None? || Trim(input.value) == [] ==> r == DefaultBio
  {
    var v := Trim(input.GetOr([]));
    if v != [] then v else DefaultBio
  }

  /** The preview shows exactly the bio a save of the same input stores. */
  lemma PreviewShowsSavedBio(bioInput: string, usernameInput: Option<string>)
    ensures BioPreview(Some(bioInput)) == SavePayload(bioInput, usernameInput).bio
  {
  }

  /** A realtime posts event: the changed record, when the event carries one. */
  datatype PostEvent = PostEvent(record: Option<Post>)

  /** `e?.record?.user === me.id`. */
  predicate ShouldRerender(e: Option<PostEvent>, me: UserId) {
    e.Some? && e.value.record.Some? && e.value.record.value.user == me
  }

  /** The posts grid: my posts. */
  function MyPosts(posts: seq<Post>, me: UserId): (r: seq<Post>)
    ensures IsSubsequence(r, posts)
    ensures forall x :: x in r <==> x in posts && x.user == me
  {
    FilterIsSubsequence(posts, (x: Post) => x.user == me);
    Filter(posts, (x: Post) => x.user == me)
  }

  /** Skipping the re-render loses nothing: a post created or deleted by an
      event the filter ignores leaves my grid as it was. */
  lemma IgnoredEventKeepsGrid(posts: seq<Post>, me: UserId, x: Post)
    requires !ShouldRerender(Some(PostEvent(Some(x))), me)
    ensures MyPosts(posts + [x], me) == MyPosts(posts, me)
    ensures MyPosts(Filter(posts, (y: Post) => y != x), me) == MyPosts(posts, me)
  {
    FilterSnoc(posts, x, (y: Post) => y.user == me);
    FilterDropsOther(posts, me, x);
  }

  lemma {:induction false} FilterDropsOther(posts: seq<Post>, me: UserId, x: Post)
    requires x.user != me
    ensures MyPosts(Filter(posts, (y: Post) => y != x), me) == MyPosts(posts, me)
  {
    if posts != [] {
      FilterDropsOther(posts[1..], me, x);
    }
  }

  /** An event about one of my posts is always acted on. */
  lemma OwnEventRerenders(me: UserId, x: Post)
    requires x.user == me
    ensures ShouldRerender(Some(PostEvent(Some(x))), me)
  {
  }
}

=== FILE: registry.dfy ===
/** The realtime subscription registry of the feed and chat pages.

    Every `subscribe` call returns a value the page keeps so that it can later
    stop the subscription by calling it. The model cannot see what that value
    is (for PocketBase `subscribe` resolves asynchronously, so the stored
    value need not even be callable), so it is the type parameter `H`, and
    whether calling it throws is the parameter `throws`. Every call the
    source makes is wrapped in `try{}catch{}`; the model records each call as
    an `Attempt` in a log, whether it threw or not.

    The per-post maps are JavaScript `Map`s, which iterate in insertion order:
    a table is a sequence of entries with distinct keys, and `set` on a
    present key keeps the entry in its place. */
module Registry {
  import opened Base

  /** `FEED_PAGE`: how many posts the feed loads. */
  const FeedPage: nat := 12

  datatype Entry<H> = Entry(key: PostId, handle: H)

  type Table<H> = seq<Entry<H>>

  function Keys<H>(t: Table<H>): (ks: seq<PostId>)
    ensures |ks| == |t|
    ensures forall i :: 0 <= i < |t| ==> ks[i] == t[i].key
  {
    if t == [] then [] else [t[0].key] + Keys(t[1..])
  }

  function Handles<H>(t: Table<H>): (hs: seq<H>)
    ensures |hs| == |t|
    ensures forall i :: 0 <= i < |t| ==> hs[i] == t[i].handle
  {
    if t == [] then [] else [t[0].handle] + Handles(t[1..])
  }

  /** No key appears twice in `ks`. */
  predicate Distinct(ks: seq<PostId>) {
    forall i, j :: 0 <= i < j < |ks| ==> ks[i] != ks[j]
  }

  /** What a `Map` can hold: no key twice. */
  predicate UniqueKeys<H>(t: Table<H>) {
    Distinct(Keys(t))
  }

  lemma KeysCons<H>(e: Entry<H>, t: Table<H>)
    ensures Keys([e] + t) == [e.key] + Keys(t)
  {
    assert ([e] + t)[1..] == t;
  }

  lemma DistinctSnoc(ks: seq<PostId>, k: PostId)
    requires Distinct(ks) && k !in ks
    ensures Distinct(ks + [k])
  {
    var r := ks + [k];
    forall i, j | 0 <= i < j < |r| ensures r[i] != r[j] {
      assert r[i] == ks[i];
    }
  }

  /** `map.get(k)`, `undefined` being `None`. */
  function Find<H>(t: Table<H>, k: PostId): (r: Option<H>)
    ensures r.None? <==> k !in Keys(t)
    ensures r.Some? ==> Entry(k, r.value) in t
  {
    if t == [] then None
    else if t[0].key == k then Some(t[0].handle)
    else
      var r := Find(t[1..], k);
      assert Keys(t) == [t[0].key] + Keys(t[1..]);
      r
  }

  /** `map.set(k, h)`: a present key keeps its place, a new key goes last. */
  function Put<H>(t: Table<H>, k: PostId, h: H): (r: Table<H>)
    ensures Keys(r) == if k in Keys(t) then Keys(t) else Keys(t) + [k]
  {
    if t == [] then [Entry(k, h)]
    else
      var e, rest := t[0], t[1..];
      assert t == [e] + rest;
      KeysCons(e, rest);
      if e.key == k then
        KeysCons(Entry(k, h), rest);
        [Entry(k, h)] + rest
      else
        var r := [e] + Put(rest, k, h);
        KeysCons(e, Put(rest, k, h));
        assert [e.key] + (Keys(rest) + [k]) == ([e.key] + Keys(rest)) + [k];
        r
  }

  /** After `set`, `get` finds the new handle under `k` and the old answer
      under every other key. */
  lemma {:induction false} PutFind<H>(t: Table<H>, k: PostId, h: H)
    ensures Find(Put(t, k, h), k) == Some(h)
    ensures forall q :: q != k ==> Find(Put(t, k, h), q) == Find(t, q)
  {
    if t != [] {
      var e, rest := t[0], t[1..];
      assert t == [e] + rest;
      if e.key == k {
        forall q | q != k ensures Find(Put(t, k, h), q) == Find(t, q) {
          FindCons(Entry(k, h), rest, q);
          FindCons(e, rest, q);
        }
        FindCons(Entry(k, h), rest, k);
      } else {
        PutFind(rest, k, h);
        forall q ensures Find(Put(t, k, h), q) == if q == k then Some(h) else Find(t, q) {
          FindCons(e, Put(rest, k, h), q);
          FindCons(e, rest, q);
        }
      }
    }
  }

  lemma FindCons<H>(e: Entry<H>, t: Table<H>, q: PostId)
    ensures Find([e] + t, q) == if e.key == q then Some(e.handle) else Find(t, q)
  {
    assert ([e] + t)[1..] == t;
  }

  /** `set` never makes a key appear twice. */
  lemma PutUnique<H>(t: Table<H>, k: PostId, h: H)
    requires UniqueKeys(t)
    ensures UniqueKeys(Put(t, k, h))
  {
    if k !in Keys(t) {
      DistinctSnoc(Keys(t), k);
    }
  }

  /** One call of a stored disposer inside `try{}catch{}`. */
  datatype Attempt<H> = Attempt(handle: H, threw: bool)

  function Dispose<H>(h: H, throws: H -> bool): Attempt<H> {
    Attempt(h, throws(h))
  }

  /** The handles a log of calls tried, in order. */
  function Attempted<H>(log: seq<Attempt<H>>): (hs: seq<H>)
    ensures |hs| == |log|
    ensures forall i :: 0 <= i < |log| ==> hs[i] == log[i].handle
  {
    seq(|log|, i requires 0 <= i < |log| => log[i].handle)
  }

  /** `for(const [,u] of map){ try{u()}catch{} }`: every entry's disposer is
      called, in insertion order, and one that throws does not stop the rest. */
  function AttemptAll<H>(t: Table<H>, throws: H -> bool): (log: seq<Attempt<H>>)
    ensures |log| == |t|
    ensures forall i :: 0 <= i < |t| ==> log[i] == Attempt(t[i].handle, throws(t[i].handle))
  {
    if t == [] then [] else [Dispose(t[0].handle, throws)] + AttemptAll(t[1..], throws)
  }

  /** The handle a single slot holds, as a sequence of zero or one. */
  function SlotHandles<H>(s: Option<H>): seq<H> {
    if s.Some? then [s.value] else []
  }

  /** `if(slot){ try{slot()}catch{} }`: a filled slot's disposer is called once. */
  function AttemptSlot<H>(s: Option<H>, throws: H -> bool): (log: seq<Attempt<H>>)
    ensures Attempted(log) == SlotHandles(s)
    ensures forall i :: 0 <= i < |log| ==> log[i].threw == throws(log[i].handle)
  {
    if s.Some? then [Dispose(s.value, throws)] else []
  }

  /** Calling every disposer of a table tries every handle it holds, in order,
      whichever of them throw. */
  lemma AttemptAllCovers<H>(t: Table<H>, throws: H -> bool)
    ensures Attempted(AttemptAll(t, throws)) == Handles(t)
  {
  }

  lemma AttemptedAppend<H>(a: seq<Attempt<H>>, b: seq<Attempt<H>>)
    ensures Attempted(a + b) == Attempted(a) + Attempted(b)
  {
  }

  /** The page's subscription state: the posts, users and chat slots and the
      per-post likes and comments maps. The multi-page feed keeps only the
      first three of these; its chat page keeps the users and chat slots. */
  datatype Registry<H> = Registry(
    posts: Option<H>,
    likes: Table<H>,
    comments: Table<H>,
    users: Option<H>,
    chat: Option<H>)

  predicate Valid<H>(reg: Registry<H>) {
    UniqueKeys(reg.likes) && UniqueKeys(reg.comments)
  }

  /** Every slot null and every map empty. */
  function Empty<H>(): Registry<H> {
    Registry(None, [], [], None, None)
  }

  /** A registry after one operation, with the disposer calls it made. */
  datatype Step<H> = Step(reg: Registry<H>, log: seq<Attempt<H>>)

  /** The shared shape of `subscribeLikes` and `subscribeComments`: dispose
      the entry already stored for `p`, if any, then store the new handle. */
  function Resubscribe<H>(t: Table<H>, p: PostId, newHandle: H, throws: H -> bool): (r: (Table<H>, seq<Attempt<H>>))
    ensures Find(r.0, p) == Some(newHandle)
    ensures forall q :: q != p ==> Find(r.0, q) == Find(t, q)
    ensures Attempted(r.1) == SlotHandles(Find(t, p))
    ensures forall i :: 0 <= i < |r.1| ==> r.1[i].threw == throws(r.1[i].handle)
    ensures UniqueKeys(t) ==> UniqueKeys(r.0)
    ensures p in Keys(t) ==> Keys(r.0) == Keys(t)
    ensures p !in Keys(t) ==> Keys(r.0) == Keys(t) + [p]
  {
    PutFind(t, p, newHandle);
    if UniqueKeys(t) then
      PutUnique(t, p, newHandle);
      (Put(t, p, newHandle), AttemptSlot(Find(t, p), throws))
    else (Put(t, p, newHandle), AttemptSlot(Find(t, p), throws))
  }

  /** `subscribeLikes(p)`: afterwards the likes map holds exactly one entry
      for `p`, the new handle; the previous one was passed to its disposer;
      every other key and every other part of the registry is unchanged. */
  function SubscribeLikes<H>(reg: Registry<H>, p: PostId, newHandle: H, throws: H -> bool): (r: Step<H>)
    ensures r.reg == reg.(likes := r.reg.likes)
    ensures Find(r.reg.likes, p) == Some(newHandle)
    ensures forall q :: q != p ==> Find(r.reg.likes, q) == Find(reg.likes, q)
    ensures Attempted(r.log) == SlotHandles(Find(reg.likes, p))
    ensures Valid(reg) ==> Valid(r.reg)
  {
    var (t, log) := Resubscribe(reg.likes, p, newHandle, throws);
    Step(reg.(likes := t), log)
  }

  /** `subscribeComments(p, firstN)`, the same replacement on the comments
      map. The Firebase edition stores `{unsub, firstN}`; `firstN` is never
      read back, so the handle stands for the pair. */
  function SubscribeComments<H>(reg: Registry<H>, p: PostId, newHandle: H, throws: H -> bool): (r: Step<H>)
    ensures r.reg == reg.(comments := r.reg.comments)
    ensures Find(r.reg.comments, p) == Some(newHandle)
    ensures forall q :: q != p ==> Find(r.reg.comments, q) == Find(reg.comments, q)
    ensures Attempted(r.log) == SlotHandles(Find(reg.comments, p))
    ensures Valid(reg) ==> Valid(r.reg)
  {
    var (t, log) := Resubscribe(reg.comments, p, newHandle, throws);
    Step(reg.(comments := t), log)
  }

  /** Subscribing a post's likes twice disposes the first handle and keeps
      the second: no subscription is left behind untracked. */
  lemma SubscribeLikesTwice<H>(reg: Registry<H>, p: PostId, h1: H, h2: H, throws: H -> bool)
    ensures var s1 := SubscribeLikes(reg, p, h1, throws);
            var s2 := SubscribeLikes(s1.reg, p, h2, throws);
            && Attempted(s2.log) == [h1]
            && Find(s2.reg.likes, p) == Some(h2)
            && Keys(s2.reg.likes) == Keys(s1.reg.likes)
  {
  }

  /** The multi-page feed's `cleanup`: the posts slot, then every likes
      entry, then every comments entry, each call fault-isolated; afterwards
      both maps are empty and the posts slot is null. */
  function FeedCleanup<H>(reg: Registry<H>, throws: H -> bool): (r: Step<H>)
    ensures r.reg == reg.(posts := None, likes := [], comments := [])
    ensures Attempted(r.log) == SlotHandles(reg.posts) + Handles(reg.likes) + Handles(reg.comments)
  {
    var log := AttemptSlot(reg.posts, throws) + AttemptAll(reg.likes, throws) + AttemptAll(reg.comments, throws);
    AttemptedAppend(AttemptSlot(reg.posts, throws) + AttemptAll(reg.likes, throws), AttemptAll(reg.comments, throws));
    AttemptedAppend(AttemptSlot(reg.posts, throws), AttemptAll(reg.likes, throws));
    AttemptAllCovers(reg.likes, throws);
    AttemptAllCovers(reg.comments, throws);
    Step(reg.(posts := None, likes := [], comments := []), log)
  }

  /** Every handle the registry holds, slot by slot and map by map. */
  function AllHandles<H>(reg: Registry<H>): seq<H> {
    SlotHandles(reg.posts) + Handles(reg.likes) + Handles(reg.comments)
      + SlotHandles(reg.users) + SlotHandles(reg.chat)
  }

  /** The single-file PocketBase edition's `cleanupSubscriptions`, run when
      the auth store reports sign-out: all five kinds of handle are tried,
      in this order, none stopping the others, and the registry ends empty. */
  function CleanupSubscriptions<H>(reg: Registry<H>, throws: H -> bool): (r: Step<H>)
    ensures r.reg == Empty()
    ensures Attempted(r.log) == AllHandles(reg)
  {
    var feed := FeedCleanup(reg, throws);
    var log := feed.log + AttemptSlot(reg.users, throws) + AttemptSlot(reg.chat, throws);
    AttemptedAppend(feed.log + AttemptSlot(reg.users, throws), AttemptSlot(reg.chat, throws));
    AttemptedAppend(feed.log, AttemptSlot(reg.users, throws));
    Step(Empty(), log)
  }

  /** The Firebase edition on sign-out: `cleanupFeedSubscribers`, which is
      the feed cleanup above, then the users slot, then the chat slot. */
  function FirebaseSignOut<H>(reg: Registry<H>, throws: H -> bool): Step<H> {
    var feed := FeedCleanup(reg, throws);
    var users := AttemptSlot(reg.users, throws);
    var chat := AttemptSlot(reg.chat, throws);
    Step(feed.reg.(users := None, chat := None), feed.log + users + chat)
  }

  /** Both editions tear down on sign-out in exactly the same way. */
  lemma FirebaseSignOutIsCleanup<H>(reg: Registry<H>, throws: H -> bool)
    ensures FirebaseSignOut(reg, throws) == CleanupSubscriptions(reg, throws)
  {
  }

  /** A teardown's outcome does not depend on which disposers throw. */
  lemma CleanupIgnoresFaults<H>(reg: Registry<H>, t1: H -> bool, t2: H -> bool)
    ensures CleanupSubscriptions(reg, t1).reg == CleanupSubscriptions(reg, t2).reg
    ensures Attempted(CleanupSubscriptions(reg, t1).log) == Attempted(CleanupSubscriptions(reg, t2).log)
  {
  }

  /** One iteration of that loop: `subscribeLikes(p)` then
      `subscribeComments(p, 2)`. */
  function SubscribePost<H>(reg: Registry<H>, p: PostId, likeHandle: H, commentHandle: H,
                            throws: H -> bool): (r: Step<H>)
    ensures r.reg == reg.(likes := r.reg.likes, comments := r.reg.comments)
    ensures Find(r.reg.likes, p) == Some(likeHandle) && Find(r.reg.comments, p) == Some(commentHandle)
    ensures forall q :: q != p ==> Find(r.reg.likes, q) == Find(reg.likes, q)
    ensures forall q :: q != p ==> Find(r.reg.comments, q) == Find(reg.comments, q)
    ensures Valid(reg) ==> Valid(r.reg)
  {
    var s1 := SubscribeLikes(reg, p, likeHandle, throws);
    var s2 := SubscribeComments(s1.reg, p, commentHandle, throws);
    Step(s2.reg, s1.log + s2.log)
  }

  /** The keys after one iteration: `p` is added last unless already there. */
  lemma SubscribePostKeys<H>(reg: Registry<H>, p: PostId, likeHandle: H, commentHandle: H,
                             throws: H -> bool)
    ensures var r := SubscribePost(reg, p, likeHandle, commentHandle, throws);
            && Keys(r.reg.likes) == (if p in Keys(reg.likes) then Keys(reg.likes) else Keys(reg.likes) + [p])
            && Keys(r.reg.comments) == (if p in Keys(reg.comments) then Keys(reg.comments) else Keys(reg.comments) + [p])
  {
  }

  /** Subscribing a post neither map holds disposes nothing. */
  lemma SubscribeNewPost<H>(reg: Registry<H>, p: PostId, likeHandle: H, commentHandle: H,
                            throws: H -> bool)
    requires p !in Keys(reg.likes) && p !in Keys(reg.comments)
    ensures SubscribePost(reg, p, likeHandle, commentHandle, throws).log == []
  {
  }

  /** The loop of `loadAndRenderFeed`: for each loaded post, in order,
      `subscribeLikes(p.id)` then `subscribeComments(p.id, 2)`; the new
      handles come from `likeHandle` and `commentHandle`. */
  function SubscribeEach<H>(reg: Registry<H>, page: seq<PostId>,
                            likeHandle: PostId -> H, commentHandle: PostId -> H,
                            throws: H -> bool): (r: Step<H>)
    ensures r.reg == reg.(likes := r.reg.likes, comments := r.reg.comments)
    decreases |page|
  {
    if page == [] then Step(reg, [])
    else
      var p := page[0];
      var s1 := SubscribePost(reg, p, likeHandle(p), commentHandle(p), throws);
      var s2 := SubscribeEach(s1.reg, page[1..], likeHandle, commentHandle, throws);
      Step(s2.reg, s1.log + s2.log)
  }

  /** The loop keeps both maps free of repeated keys. */
  lemma {:induction false} SubscribeEachValid<H>(reg: Registry<H>, page: seq<PostId>,
                                                likeHandle: PostId -> H, commentHandle: PostId -> H,
                                                throws: H -> bool)
    requires Valid(reg)
    ensures Valid(SubscribeEach(reg, page, likeHandle, commentHandle, throws).reg)
    decreases |page|
  {
    if page != [] {
      var p := page[0];
      var s1 := SubscribePost(reg, p, likeHandle(p), commentHandle(p), throws);
      SubscribeEachValid(s1.reg, page[1..], likeHandle, commentHandle, throws);
    }
  }

  /** The loop leaves the entries of posts it did not load as they were. */
  lemma {:induction false} SubscribeEachOthers<H>(reg: Registry<H>, page: seq<PostId>,
                                                 likeHandle: PostId -> H, commentHandle: PostId -> H,
                                                 throws: H -> bool)
    ensures var r := SubscribeEach(reg, page, likeHandle, commentHandle, throws);
            && (forall q :: q !in page ==> Find(r.reg.likes, q) == Find(reg.likes, q))
            && (forall q :: q !in page ==> Find(r.reg.comments, q) == Find(reg.comments, q))
    decreases |page|
  {
    if page != [] {
      var p, rest := page[0], page[1..];
      var s1 := SubscribePost(reg, p, likeHandle(p), commentHandle(p), throws);
      var s2 := SubscribeEach(s1.reg, rest, likeHandle, commentHandle, throws);
      assert SubscribeEach(reg, page, likeHandle, commentHandle, throws).reg == s2.reg;
      SubscribeEachOthers(s1.reg, rest, likeHandle, commentHandle, throws);
      InCons(page);
    }
  }

  /** After the loop the maps hold exactly the keys they held before and
      the loaded posts. */
  lemma {:induction false} SubscribeEachKeys<H>(reg: Registry<H>, page: seq<PostId>,
                                               likeHandle: PostId -> H, commentHandle: PostId -> H,
                                               throws: H -> bool)
    ensures var r := SubscribeEach(reg, page, likeHandle, commentHandle, throws);
            && (forall k :: k in Keys(r.reg.likes) <==> k in Keys(reg.likes) || k in page)
            && (forall k :: k in Keys(r.reg.comments) <==> k in Keys(reg.comments) || k in page)
    decreases |page|
  {
    if page != [] {
      var p, rest := page[0], page[1..];
      var s1 := SubscribePost(reg, p, likeHandle(p), commentHandle(p), throws);
      var s2 := SubscribeEach(s1.reg, rest, likeHandle, commentHandle, throws);
      assert SubscribeEach(reg, page, likeHandle, commentHandle, throws).reg == s2.reg;
      SubscribePostKeys(reg, p, likeHandle(p), commentHandle(p), throws);
      SubscribeEachKeys(s1.reg, rest, likeHandle, commentHandle, throws);
      InCons(page);
    }
  }

  /** Each loaded post's entries hold the handles created for it. */
  lemma {:induction false} SubscribeEachFinds<H>(reg: Registry<H>, page: seq<PostId>,
                                                likeHandle: PostId -> H, commentHandle: PostId -> H,
                                                throws: H -> bool)
    ensures var r := SubscribeEach(reg, page, likeHandle, commentHandle, throws);
            && (forall k :: k in page ==> Find(r.reg.likes, k) == Some(likeHandle(k)))
            && (forall k :: k in page ==> Find(r.reg.comments, k) == Some(commentHandle(k)))
    decreases |page|
  {
    if page != [] {
      var p, rest := page[0], page[1..];
      var s1 := SubscribePost(reg, p, likeHandle(p), commentHandle(p), throws);
      var s2 := SubscribeEach(s1.reg, rest, likeHandle, commentHandle, throws);
      assert SubscribeEach(reg, page, likeHandle, commentHandle, throws).reg == s2.reg;
      SubscribeEachFinds(s1.reg, rest, likeHandle, commentHandle, throws);
      SubscribeEachOthers(s1.reg, rest, likeHandle, commentHandle, throws);
      InCons(page);
      forall k | k in page
        ensures Find(s2.reg.likes, k) == Some(likeHandle(k))
        ensures Find(s2.reg.comments, k) == Some(commentHandle(k))
      {
        if k !in rest {
          assert k == p;
          assert Find(s2.reg.likes, k) == Find(s1.reg.likes, k);
          assert Find(s2.reg.comments, k) == Find(s1.reg.comments, k);
        }
      }
    }
  }

  /** Into maps that do not yet hold any of the posts, distinct posts are
      added in order, and nothing is disposed. */
  lemma {:induction false} SubscribeEachFresh<H>(reg: Registry<H>, page: seq<PostId>,
                                                likeHandle: PostId -> H, commentHandle: PostId -> H,
                                                throws: H -> bool)
    requires forall k :: k in page ==> k !in Keys(reg.likes) && k !in Keys(reg.comments)
    requires Distinct(page)
    ensures var r := SubscribeEach(reg, page, likeHandle, commentHandle, throws);
            && Keys(r.reg.likes) == Keys(reg.likes) + page
            && Keys(r.reg.comments) == Keys(reg.comments) + page
            && r.log == []
    decreases |page|
  {
    if page != [] {
      var p, rest := page[0], page[1..];
      var s1 := SubscribePost(reg, p, likeHandle(p), commentHandle(p), throws);
      assert p in page;
      SubscribePostKeys(reg, p, likeHandle(p), commentHandle(p), throws);
      SubscribeNewPost(reg, p, likeHandle(p), commentHandle(p), throws);
      FreshTail(Keys(reg.likes), Keys(reg.comments), page);
      SubscribeEachFresh(s1.reg, rest, likeHandle, commentHandle, throws);
      AppendCons(Keys(reg.likes), page);
      AppendCons(Keys(reg.comments), page);
    }
  }

  /** The rest of a page of distinct fresh keys is fresh for the keys plus
      the page's first element. */
  lemma FreshTail(ks1: seq<PostId>, ks2: seq<PostId>, page: seq<PostId>)
    requires page != [] && Distinct(page)
    requires forall k :: k in page ==> k !in ks1 && k !in ks2
    ensures forall k :: k in page[1..] ==> k !in ks1 + [page[0]] && k !in ks2 + [page[0]]
    ensures Distinct(page[1..])
  {
    assert page == [page[0]] + page[1..];
  }

  lemma InCons(page: seq<PostId>)
    requires page != []
    ensures forall k :: k in page <==> k == page[0] || k in page[1..]
  {
    assert page == [page[0]] + page[1..];
  }

  lemma AppendCons(a: seq<PostId>, page: seq<PostId>)
    requires page != []
    ensures a + [page[0]] + page[1..] == a + page
  {
    assert page == [page[0]] + page[1..];
  }

  /** `loadAndRenderFeed`. Without the feed list element it returns at once;
      otherwise it disposes and clears both per-post maps, loads the newest
      `FEED_PAGE` posts (`newest` is the server's list, newest first) and
      subscribes likes and comments for each. Afterwards the keys of both
      maps are exactly the ids of the loaded posts, at most twelve. */
  function LoadAndRenderFeed<H>(reg: Registry<H>, hasList: bool, newest: seq<PostId>,
                                likeHandle: PostId -> H, commentHandle: PostId -> H,
                                throws: H -> bool): (r: Step<H>)
    ensures !hasList ==> r == Step(reg, [])
    ensures hasList ==>
              && r.reg.posts == reg.posts && r.reg.users == reg.users && r.reg.chat == reg.chat
              && Valid(r.reg)
              && (forall k :: k in Keys(r.reg.likes) <==> k in Take(newest, FeedPage))
              && (forall k :: k in Keys(r.reg.comments) <==> k in Take(newest, FeedPage))
              && |Keys(r.reg.likes)| <= FeedPage
              && |r.log| >= |reg.likes| + |reg.comments|
              && Attempted(r.log)[..|reg.likes| + |reg.comments|] == Handles(reg.likes) + Handles(reg.comments)
    ensures hasList && Distinct(Take(newest, FeedPage)) ==>
              Keys(r.reg.likes) == Take(newest, FeedPage) && Keys(r.reg.comments) == Take(newest, FeedPage)
  {
    if !hasList then Step(reg, [])
    else
      var cleared := AttemptAll(reg.likes, throws) + AttemptAll(reg.comments, throws);
      AttemptedAppend(AttemptAll(reg.likes, throws), AttemptAll(reg.comments, throws));
      AttemptAllCovers(reg.likes, throws);
      AttemptAllCovers(reg.comments, throws);
      var page := Take(newest, FeedPage);
      var s := SubscribeEach(reg.(likes := [], comments := []), page, likeHandle, commentHandle, throws);
      SubscribeEachKeys(reg.(likes := [], comments := []), page, likeHandle, commentHandle, throws);
      SubscribeEachValid(reg.(likes := [], comments := []), page, likeHandle, commentHandle, throws);
      assert Distinct(page) ==> Keys(s.reg.likes) == page && Keys(s.reg.comments) == page by {
        if Distinct(page) {
          SubscribeEachFresh(reg.(likes := [], comments := []), page, likeHandle, commentHandle, throws);
        }
      }
      UniqueKeysBound(s.reg.likes, page);
      AttemptedAppend(cleared, s.log);
      assert Attempted(cleared + s.log)[..|cleared|] == Attempted(cleared);
      Step(s.reg, cleared + s.log)
  }

  /** A table with distinct keys drawn from `page` has at most `|page|` entries. */
  lemma UniqueKeysBound<H>(t: Table<H>, page: seq<PostId>)
    requires UniqueKeys(t)
    requires forall k :: k in Keys(t) ==> k in page
    ensures |Keys(t)| <= |page|
  {
    DistinctSubsetBound(Keys(t), page);
  }

  lemma {:induction false} DistinctSubsetBound(ks: seq<PostId>, page: seq<PostId>)
    requires Distinct(ks)
    requires forall k :: k in ks ==> k in page
    ensures |ks| <= |page|
  {
    var s := set k | k in ks;
    var sp := set k | k in page;
    assert s <= sp;
    DistinctCard(ks);
    SetCardBound(page);
    assert |s| <= |sp| by {
      SubsetCard(s, sp);
    }
  }

  lemma {:induction false} DistinctCard(ks: seq<PostId>)
    requires Distinct(ks)
    ensures |set k | k in ks| == |ks|
  {
    if ks != [] {
      var rest := ks[1..];
      assert Distinct(rest);
      DistinctCard(rest);
      assert (set k | k in ks) == (set k | k in rest) + {ks[0]};
      assert ks[0] !in rest;
    }
  }

  lemma {:induction false} SetCardBound(xs: seq<PostId>)
    ensures |set k | k in xs| <= |xs|
  {
    if xs != [] {
      SetCardBound(xs[1..]);
      assert (set k | k in xs) == (set k | k in xs[1..]) + {xs[0]};
    }
  }

  lemma SubsetCard(a: set<PostId>, b: set<PostId>)
    requires a <= b
    ensures |a| <= |b|
  {
    assert b == a + (b - a);
  }

  /** `subscribeFeed` in the PocketBase editions: without the feed list it
      does nothing; otherwise it disposes the posts slot, loads the feed and
      stores the new posts subscription. */
  function SubscribeFeed<H>(reg: Registry<H>, hasList: bool, newest: seq<PostId>, feedHandle: H,
                            likeHandle: PostId -> H, commentHandle: PostId -> H,
                            throws: H -> bool): (r: Step<H>)
    ensures !hasList ==> r == Step(reg, [])
    ensures hasList ==> r.reg.posts == Some(feedHandle) && r.reg.users == reg.users && r.reg.chat == reg.chat
    ensures hasList ==> |r.log| >= |SlotHandles(reg.posts)| && Attempted(r.log)[..|SlotHandles(reg.posts)|] == SlotHandles(reg.posts)
    ensures hasList ==> forall k :: k in Keys(r.reg.likes) <==> k in Take(newest, FeedPage)
  {
    if !hasList then Step(reg, [])
    else
      var first := AttemptSlot(reg.posts, throws);
      var load := LoadAndRenderFeed(reg.(posts := None), true, newest, likeHandle, commentHandle, throws);
      AttemptedAppend(first, load.log);
      assert Attempted(first + load.log)[..|first|] == Attempted(first);
      Step(load.reg.(posts := Some(feedHandle)), first + load.log)
  }

  /** The Firebase edition's `subscribeFeed`: without the feed list it does
      nothing; otherwise it runs `cleanupFeedSubscribers` and stores the new
      posts subscription, whose snapshot callback rebuilds the per-post maps
      as `LoadAndRenderFeed` does. */
  function FirebaseSubscribeFeed<H>(reg: Registry<H>, hasList: bool, feedHandle: H, throws: H -> bool): (r: Step<H>)
    ensures !hasList ==> r == Step(reg, [])
    ensures hasList ==> r.reg == reg.(posts := Some(feedHandle), likes := [], comments := [])
    ensures hasList ==> Attempted(r.log) == SlotHandles(reg.posts) + Handles(reg.likes) + Handles(reg.comments)
  {
    if !hasList then Step(reg, [])
    else
      var c := FeedCleanup(reg, throws);
      Step(c.reg.(posts := Some(feedHandle)), c.log)
  }

  /** `subscribeUsers`: dispose the users slot, then store the new handle. */
  function SubscribeUsers<H>(reg: Registry<H>, newHandle: H, throws: H -> bool): (r: Step<H>)
    ensures r.reg == reg.(users := Some(newHandle))
    ensures Attempted(r.log) == SlotHandles(reg.users)
  {
    Step(reg.(users := Some(newHandle)), AttemptSlot(reg.users, throws))
  }

  /** `subscribeChat` (and the Firebase `subscribeChatForCurrent`): dispose
      the chat slot first; store a new handle only when someone is signed in
      and a peer is selected, otherwise end with no chat handle. */
  function SubscribeChat<H>(reg: Registry<H>, signedIn: bool, hasPeer: bool, newHandle: H, throws: H -> bool): (r: Step<H>)
    ensures r.reg == reg.(chat := r.reg.chat)
    ensures r.reg.chat.Some? <==> signedIn && hasPeer
    ensures r.reg.chat.Some? ==> r.reg.chat.value == newHandle
    ensures Attempted(r.log) == SlotHandles(reg.chat)
  {
    var log := AttemptSlot(reg.chat, throws);
    if signedIn && hasPeer then Step(reg.(chat := Some(newHandle)), log)
    else Step(reg.(chat := None), log)
  }

  /** Switching peers never leaves two chat subscriptions: the handle stored
      by one `subscribeChat` is the one the next call disposes. */
  lemma SubscribeChatTwice<H>(reg: Registry<H>, h1: H, h2: H, signedIn: bool, hasPeer: bool, throws: H -> bool)
    requires signedIn && hasPeer
    ensures var s1 := SubscribeChat(reg, signedIn, hasPeer, h1, throws);
            Attempted(SubscribeChat(s1.reg, signedIn, hasPeer, h2, throws).log) == [h1]
  {
  }
}

=== FILE: rooms.dfy ===
/** Direct-message rooms. Every edition names the conversation between two
    users `dm:<lo>::<hi>`, where `[lo, hi]` is the pair sorted with the default
    string order, so both participants compute the same room. */
module Rooms {
  import opened Text

  /** `[a, b].sort()`: the two strings in ascending order. */
  function SortPair(a: string, b: string): (p: (string, string))
    ensures multiset{p.0, p.1} == multiset{a, b}
    ensures !Less(p.1, p.0)
  {
    if Less(b, a) then
      LessAsymmetric(a, b);
      (b, a)
    else (a, b)
  }

  /** `dm:${arr[0]}::${arr[1]}` after sorting. */
  function RoomId(a: string, b: string): (r: string)
    ensures "dm:" <= r
    ensures |r| == |a| + |b| + 5
    ensures !Less(b, a) ==> r == "dm:" + a + "::" + b
    ensures Less(b, a) ==> r == "dm:" + b + "::" + a
  {
    var p := SortPair(a, b);
    "dm:" + p.0 + "::" + p.1
  }

  /** Both participants compute the same room. */
  lemma RoomIdSymmetric(a: string, b: string)
    ensures RoomId(a, b) == RoomId(b, a)
  {
    if a != b {
      LessTotal(a, b);
      LessAsymmetric(a, b);
    }
  }

  predicate NoColon(s: string) {
    forall i :: 0 <= i < |s| ==> s[i] != ':'
  }

  /** In `dm:x::y` with no colon in `x`, the first colon after the prefix
      sits right after `x`. */
  lemma FirstColon(x: string, y: string)
    requires NoColon(x)
    ensures forall i :: 3 <= i < 3 + |x| ==> ("dm:" + x + "::" + y)[i] != ':'
    ensures ("dm:" + x + "::" + y)[3 + |x|] == ':'
  {
  }

  /** A room name of colon-free ids splits back into its two ids. */
  lemma SplitRoom(x: string, y: string, x2: string, y2: string)
    requires NoColon(x) && NoColon(x2)
    requires "dm:" + x + "::" + y == "dm:" + x2 + "::" + y2
    ensures x == x2 && y == y2
  {
    var r := "dm:" + x + "::" + y;
    var r2 := "dm:" + x2 + "::" + y2;
    FirstColon(x, y);
    FirstColon(x2, y2);
    assert |x| == |x2|;
    assert x == r[3..3 + |x|];
    assert x2 == r2[3..3 + |x2|];
    assert y == r[|x| + 5..];
    assert y2 == r2[|x2| + 5..];
  }

  /** Ids without colons never share a room unless they are the same pair. */
  lemma RoomIdInjective(a: string, b: string, c: string, d: string)
    requires NoColon(a) && NoColon(b) && NoColon(c) && NoColon(d)
    requires RoomId(a, b) == RoomId(c, d)
    ensures multiset{a, b} == multiset{c, d}
  {
    var p := SortPair(a, b);
    var q := SortPair(c, d);
    assert p.0 in multiset{a, b} && q.0 in multiset{c, d};
    SplitRoom(p.0, p.1, q.0, q.1);
  }

  /** Colons in ids do let two different pairs meet in one room. */
  lemma RoomIdCollision()
    ensures RoomId("a", "b::c") == RoomId("a::b", "c") == "dm:a::b::c"
    ensures multiset{"a", "b::c"} != multiset{"a::b", "c"}
  {
    assert Less("a", "b::c");
    assert Less("a::b", "c");
    assert "a" !in multiset{"a::b", "c"};
  }
}

=== FILE: text.dfy ===
/** The few JavaScript string primitives the app leans on: `trim`,
    `toLowerCase`, the default `<` on strings used by `Array.prototype.sort`,
    `String(n)` for a count, and `parseInt(text, 10) || 0`. */
module Text {

  /** The white space `String.prototype.trim` and `parseInt` skip: ASCII
      white space, no-break space, byte-order mark and the two Unicode line
      terminators. */
  predicate IsSpace(c: char) {
    c == ' ' || c == '\t' || c == '\n' || c == '\r' || c == '\U{0B}' || c == '\U{0C}'
    || c == '\U{A0}' || c == '\U{FEFF}' || c == '\U{2028}' || c == '\U{2029}'
  }

  /** A sign `parseInt` accepts in front of the digits. */
  predicate IsSign(c: char) {
    c == '-' || c == '+'
  }

  predicate IsDigit(c: char) {
    '0' <= c <= '9'
  }

  /** `s.trimStart()`: drops the leading run of white space and nothing else. */
  function TrimStart(s: string): (r: string)
    ensures |r| <= |s|
    ensures r == s[|s| - |r|..]
    ensures r == [] || !IsSpace(r[0])
    ensures forall i :: 0 <= i < |s| - |r| ==> IsSpace(s[i])
  {
    if |s| > 0 && IsSpace(s[0]) then
      var r := TrimStart(s[1..]);
      assert s[1..][|s| - 1 - |r|..] == s[|s| - |r|..];
      r
    else s
  }

  /** `s.trimEnd()`: drops the trailing run of white space and nothing else. */
  function TrimEnd(s: string): (r: string)
    ensures |r| <= |s|
    ensures r == s[..|r|]
    ensures r == [] || !IsSpace(r[|r| - 1])
    ensures forall i :: |r| <= i < |s| ==> IsSpace(s[i])
  {
    if |s| > 0 && IsSpace(s[|s| - 1]) then
      var r := TrimEnd(s[..|s| - 1]);
      assert s[..|s| - 1][..|r|] == s[..|r|];
      r
    else s
  }

  /** `s.trim()`. */
  function Trim(s: string): (r: string)
  {
    TrimEnd(TrimStart(s))
  }

  /** Where `trim` cuts: the kept slice `s[a..b]`, with white space before
      `a` and from `b` on. */
  lemma TrimBounds(s: string) returns (a: nat, b: nat)
    ensures a <= b <= |s| && Trim(s) == s[a..b]
    ensures forall i :: 0 <= i < a ==> IsSpace(s[i])
    ensures forall i :: b <= i < |s| ==> IsSpace(s[i])
  {
    var t := TrimStart(s);
    a := |s| - |t|;
    var r := TrimEnd(t);
    b := a + |r|;
    SuffixOfSlice(s, a, |r|);
    SpacesAfter(s, a, |r|);
  }

  lemma SuffixOfSlice(s: string, a: nat, k: nat)
    requires a + k <= |s|
    ensures s[a..][..k] == s[a..a + k]
  {
  }

  lemma SpacesAfter(s: string, a: nat, k: nat)
    requires a + k <= |s|
    requires forall i :: k <= i < |s| - a ==> IsSpace(s[a..][i])
    ensures forall i :: a + k <= i < |s| ==> IsSpace(s[i])
  {
    forall i | a + k <= i < |s| ensures IsSpace(s[i]) {
      assert s[i] == s[a..][i - a];
    }
  }

  /** `trim` removes exactly a white-space prefix and a white-space suffix:
      the result is a slice of the input and what is cut off is white space. */
  lemma TrimSlice(s: string)
    ensures exists a, b ::
              && 0 <= a <= b <= |s| && Trim(s) == s[a..b]
              && (forall i :: 0 <= i < a ==> IsSpace(s[i]))
              && (forall i :: b <= i < |s| ==> IsSpace(s[i]))
  {
    var a, b := TrimBounds(s);
  }

  /** The result of `trim` neither starts nor ends with white space. */
  lemma TrimEnds(s: string)
    ensures Trim(s) == [] || (!IsSpace(Trim(s)[0]) && !IsSpace(Trim(s)[|Trim(s)| - 1]))
  {
    var t := TrimStart(s);
    var r := TrimEnd(t);
    if r != [] {
      assert r[0] == t[0];
    }
  }

  /** `s.trim()` is empty exactly when `s` is all white space. */
  lemma TrimEmpty(s: string)
    ensures Trim(s) == [] <==> forall i :: 0 <= i < |s| ==> IsSpace(s[i])
  {
    var t := TrimStart(s);
    var a := |s| - |t|;
    if Trim(s) != [] {
      var r := Trim(s);
      assert r[0] == t[0] == s[a];
    }
  }

  /** A string with no white space at either end is its own trim. */
  lemma TrimNoop(s: string)
    requires s == [] || (!IsSpace(s[0]) && !IsSpace(s[|s| - 1]))
    ensures Trim(s) == s
  {
  }

  /** The first code point outside the Basic Multilingual Plane. */
  const FirstAstral: int := 0x1_0000

  /** JavaScript's `s.length`: the number of UTF-16 code units, where a
      character outside the Basic Multilingual Plane takes two. */
  function Utf16Length(s: string): (n: nat)
    ensures |s| <= n <= 2 * |s|
    ensures n == |s| <==> forall i :: 0 <= i < |s| ==> (s[i] as int) < FirstAstral
    ensures n == 2 * |s| <==> forall i :: 0 <= i < |s| ==> (s[i] as int) >= FirstAstral
  {
    if s == [] then 0
    else
      var rest := Utf16Length(s[1..]);
      assert forall i :: 1 <= i < |s| ==> s[i] == s[1..][i - 1];
      (if s[0] as int >= FirstAstral then 2 else 1) + rest
  }

  /** Code units add up over concatenation. */
  lemma {:induction false} Utf16LengthAppend(a: string, b: string)
    ensures Utf16Length(a + b) == Utf16Length(a) + Utf16Length(b)
  {
    if a != [] {
      assert (a + b)[0] == a[0];
      assert (a + b)[1..] == a[1..] + b;
      Utf16LengthAppend(a[1..], b);
      assert Utf16Length(a + b) == (if a[0] as int >= FirstAstral then 2 else 1) + Utf16Length(a[1..] + b);
    } else {
      assert a + b == b;
    }
  }

  /** ASCII `toLowerCase` on one character. */
  function LowerChar(c: char): (r: char)
    ensures 'A' <= c <= 'Z' ==> r as int == c as int + 32 && 'a' <= r <= 'z'
    ensures !('A' <= c <= 'Z') ==> r == c
  {
    if 'A' <= c <= 'Z' then (c as int + 32) as char else c
  }

  /** `s.toLowerCase()` for ASCII letters: each of `A`..`Z` becomes the
      letter 32 code points later, every other character is kept, and no
      upper-case ASCII letter remains. */
  function ToLower(s: string): (r: string)
    ensures |r| == |s|
    ensures forall i :: 0 <= i < |s| && 'A' <= s[i] <= 'Z' ==> r[i] as int == s[i] as int + 32
    ensures forall i :: 0 <= i < |s| && !('A' <= s[i] <= 'Z') ==> r[i] == s[i]
    ensures forall i :: 0 <= i < |r| ==> !('A' <= r[i] <= 'Z')
  {
    seq(|s|, i requires 0 <= i < |s| => LowerChar(s[i]))
  }

  /** JavaScript's `a < b` on strings: lexicographic by character code, a
      proper prefix coming first. */
  predicate Less(a: string, b: string)
  {
    if |a| == 0 then |b| > 0
    else if |b| == 0 then false
    else if a[0] != b[0] then a[0] < b[0]
    else Less(a[1..], b[1..])
  }

  /** No string is less than itself and no two strings are less than each other. */
  lemma {:induction false} LessAsymmetric(a: string, b: string)
    ensures !(Less(a, b) && Less(b, a))
  {
    if |a| > 0 && |b| > 0 && a[0] == b[0] {
      LessAsymmetric(a[1..], b[1..]);
    }
  }

  /** Two different strings are always ordered one way or the other. */
  lemma {:induction false} LessTotal(a: string, b: string)
    requires a != b
    ensures Less(a, b) || Less(b, a)
  {
    if |a| > 0 && |b| > 0 && a[0] == b[0] {
      assert a == [a[0]] + a[1..] && b == [b[0]] + b[1..];
      LessTotal(a[1..], b[1..]);
    }
  }

  function DigitChar(d: nat): (c: char)
    requires d < 10
    ensures IsDigit(c)
  {
    ('0' as int + d) as char
  }

  function DigitValue(c: char): (d: nat)
    requires IsDigit(c)
    ensures d < 10
  {
    c as int - '0' as int
  }

  /** `String(n)` for a natural number: its decimal digits, most significant first. */
  function NatToString(n: nat): (r: string)
    ensures |r| >= 1
    ensures forall i :: 0 <= i < |r| ==> IsDigit(r[i])
  {
    if n < 10 then [DigitChar(n)] else NatToString(n / 10) + [DigitChar(n % 10)]
  }

  /** The longest prefix of `s` made of decimal digits. */
  function LeadingDigits(s: string): (r: string)
    ensures r <= s
    ensures forall i :: 0 <= i < |r| ==> IsDigit(r[i])
    ensures |r| == |s| || !IsDigit(s[|r|])
  {
    if s != [] && IsDigit(s[0]) then [s[0]] + LeadingDigits(s[1..]) else []
  }

  /** The value of a string of decimal digits; the empty string is worth 0. */
  function DigitsValue(ds: string): nat
    requires forall i :: 0 <= i < |ds| ==> IsDigit(ds[i])
  {
    if ds == [] then 0 else 10 * DigitsValue(ds[..|ds| - 1]) + DigitValue(ds[|ds| - 1])
  }

  /** `parseInt(s, 10) || 0`: skip leading white space, read an optional sign
      and then as many decimal digits as there are. With no digit `parseInt`
      gives `NaN`, which `|| 0` turns into 0, as it does `-0`. */
  function ParseIntOrZero(s: string): (r: int)
    ensures r < 0 ==> TrimStart(s) != [] && TrimStart(s)[0] == '-'
  {
    var t := TrimStart(s);
    if t != [] && t[0] == '-' then -(DigitsValue(LeadingDigits(t[1..]) ) as int)
    else if t != [] && t[0] == '+' then DigitsValue(LeadingDigits(t[1..]))
    else DigitsValue(LeadingDigits(t))
  }

  /** Where `parseInt` reads: white space `s[..w]`, an optional sign
      (`sg == 1`), then the leading digits of `s[w + sg..]`, whose value,
      negated after a `-`, is the result. `DigitRunAt` places those digits
      in `s`. */
  lemma ParseIntOrZeroSplit(s: string) returns (w: nat, sg: nat)
    ensures w + sg <= |s| && sg <= 1
    ensures forall i :: 0 <= i < w ==> IsSpace(s[i])
    ensures w == |s| || !IsSpace(s[w])
    ensures sg == 1 <==> w < |s| && IsSign(s[w])
    ensures ParseIntOrZero(s) ==
              if sg == 1 && s[w] == '-' then -(DigitsValue(LeadingDigits(s[w + sg..])) as int)
              else DigitsValue(LeadingDigits(s[w + sg..]))
  {
    var t := TrimStart(s);
    w := |s| - |t|;
    sg := if t != [] && IsSign(t[0]) then 1 else 0;
    assert t[sg..] == s[w + sg..];
  }

  /** The digits `LeadingDigits` reads from the suffix `s[a..]` sit at
      `s[a..a + n]`, and the run there is maximal. */
  lemma DigitRunAt(s: string, a: nat) returns (n: nat)
    requires a <= |s|
    ensures n == |LeadingDigits(s[a..])| && a + n <= |s|
    ensures LeadingDigits(s[a..]) == s[a..a + n]
    ensures forall i :: a <= i < a + n ==> IsDigit(s[i])
    ensures a + n == |s| || !IsDigit(s[a + n])
  {
    var u := s[a..];
    var ds := LeadingDigits(u);
    n := |ds|;
    assert ds == u[..n];
    SuffixOfSlice(s, a, n);
    forall i | a <= i < a + n ensures IsDigit(s[i]) {
      assert s[i] == ds[i - a];
    }
    if n < |u| {
      assert s[a + n] == u[n];
    }
  }

  lemma {:induction false} DigitsValueOfNatToString(n: nat)
    ensures DigitsValue(NatToString(n)) == n
  {
    var r := NatToString(n);
    if n >= 10 {
      DigitsValueOfNatToString(n / 10);
      assert r[..|r| - 1] == NatToString(n / 10);
    }
  }

  lemma {:induction false} LeadingDigitsOfDigitsThen(ds: string, rest: string)
    requires forall i :: 0 <= i < |ds| ==> IsDigit(ds[i])
    requires rest == [] || !IsDigit(rest[0])
    ensures LeadingDigits(ds + rest) == ds
  {
    if ds != [] {
      assert (ds + rest)[1..] == ds[1..] + rest;
      LeadingDigitsOfDigitsThen(ds[1..], rest);
      assert ds == [ds[0]] + ds[1..];
    } else {
      assert ds + rest == rest;
    }
  }

  /** Reading back a rendered count: `parseInt(String(n) + rest, 10) || 0 == n`
      whenever `rest` does not continue the number with another digit. */
  lemma ParseNatToString(n: nat, rest: string)
    requires rest == [] || !IsDigit(rest[0])
    ensures ParseIntOrZero(NatToString(n) + rest) == n
  {
    var s := NatToString(n) + rest;
    assert !IsSpace(s[0]) && s[0] != '-' && s[0] != '+';
    assert TrimStart(s) == s;
    LeadingDigitsOfDigitsThen(NatToString(n), rest);
    DigitsValueOfNatToString(n);
  }
}

=== FILE: username.dfy ===
/** `sanitizeUsername`: lower-case the input, keep only `[a-z0-9_.-]`, strip
    the leading and the trailing run of `_ . -`, then cut to 30 characters.
    The multi-page edition's shared module and the single-file PocketBase
    edition define it identically. */
module Username {
  import opened Base
  import opened Text

  /** The longest username `sanitizeUsername` returns. */
  const MaxLength: nat := 30

  predicate IsSeparator(c: char) {
    c == '_' || c == '.' || c == '-'
  }

  predicate IsAlnum(c: char) {
    'a' <= c <= 'z' || IsDigit(c)
  }

  /** A character the filter `/[^a-z0-9_.-]/g` lets through. */
  predicate IsAllowed(c: char) {
    IsAlnum(c) || IsSeparator(c)
  }

  predicate AllAllowed(s: string) {
    forall i :: 0 <= i < |s| ==> IsAllowed(s[i])
  }

  /** `.replace(/[^a-z0-9_.-]/g, '')`: every allowed character survives,
      in order and with its multiplicity, and nothing else does. */
  function KeepAllowed(s: string): (r: string)
    ensures AllAllowed(r)
    ensures IsSubsequence(r, s)
    ensures forall c :: multiset(r)[c] == if IsAllowed(c) then multiset(s)[c] else 0
  {
    var r := Filter(s, IsAllowed);
    assert forall i :: 0 <= i < |r| ==> r[i] in r;
    FilterIsSubsequence(s, IsAllowed);
    FilterCounts(s, IsAllowed);
    r
  }

  /** The length of the leading run of separators. */
  function LeadingSeparators(s: string): (n: nat)
    ensures n <= |s|
    ensures forall i :: 0 <= i < n ==> IsSeparator(s[i])
    ensures n == |s| || !IsSeparator(s[n])
  {
    if s != [] && IsSeparator(s[0]) then
      var n := LeadingSeparators(s[1..]);
      assert forall i :: 1 <= i < n + 1 ==> s[i] == s[1..][i - 1];
      n + 1
    else 0
  }

  /** The length of the trailing run of separators. */
  function TrailingSeparators(s: string): (n: nat)
    ensures n <= |s|
    ensures forall i :: |s| - n <= i < |s| ==> IsSeparator(s[i])
    ensures n == |s| || !IsSeparator(s[|s| - n - 1])
  {
    if s != [] && IsSeparator(s[|s| - 1]) then
      var n := TrailingSeparators(s[..|s| - 1]);
      assert forall i :: |s| - 1 - n <= i < |s| - 1 ==> s[i] == s[..|s| - 1][i];
      n + 1
    else 0
  }

  /** The `^[_.-]+` alternative: drops the leading run of separators. */
  function StripLeading(s: string): (r: string)
    ensures |r| <= |s| && r == s[|s| - |r|..]
    ensures r == [] || !IsSeparator(r[0])
    ensures forall i :: 0 <= i < |s| - |r| ==> IsSeparator(s[i])
    ensures AllAllowed(s) ==> AllAllowed(r)
  {
    s[LeadingSeparators(s)..]
  }

  /** The `[_.-]+$` alternative: drops the trailing run of separators. */
  function StripTrailing(s: string): (r: string)
    ensures |r| <= |s| && r == s[..|r|]
    ensures r == [] || !IsSeparator(r[|r| - 1])
    ensures forall i :: |r| <= i < |s| ==> IsSeparator(s[i])
    ensures AllAllowed(s) ==> AllAllowed(r)
  {
    s[..|s| - TrailingSeparators(s)]
  }

  /** The value `v` before the cut: lower-cased, filtered and stripped. */
  function Stripped(s: string): (r: string)
    ensures AllAllowed(r)
    ensures r == [] || (IsAlnum(r[0]) && IsAlnum(r[|r| - 1]))
  {
    Strip(KeepAllowed(ToLower(s)))
  }

  /** `replace(/^[_.-]+|[_.-]+$/g, "")` on clean text: both runs of
      separators go, so what is left starts and ends with a letter or digit. */
  function Strip(k: string): (r: string)
    requires AllAllowed(k)
    ensures AllAllowed(r)
    ensures r == [] || (IsAlnum(r[0]) && IsAlnum(r[|r| - 1]))
  {
    StripBothEnds(k);
    StripTrailing(StripLeading(k))
  }

  /** Where the stripped value sits in the lower-cased, filtered input. */
  lemma StrippedBounds(s: string) returns (a: nat, b: nat)
    ensures var k := KeepAllowed(ToLower(s));
            && a <= b <= |k| && Stripped(s) == k[a..b]
            && (forall i :: 0 <= i < a ==> IsSeparator(k[i]))
            && (forall i :: b <= i < |k| ==> IsSeparator(k[i]))
  {
    a, b := StripBounds(KeepAllowed(ToLower(s)));
  }

  /** Stripping both runs cuts `k` to a slice with only separators outside it. */
  lemma StripBounds(k: string) returns (a: nat, b: nat)
    ensures a <= b <= |k| && StripTrailing(StripLeading(k)) == k[a..b]
    ensures forall i :: 0 <= i < a ==> IsSeparator(k[i])
    ensures forall i :: b <= i < |k| ==> IsSeparator(k[i])
  {
    var lead := StripLeading(k);
    var r := StripTrailing(lead);
    a := |k| - |lead|;
    b := a + |r|;
    SliceOfSuffix(k, a, |r|);
    forall i | b <= i < |k| ensures IsSeparator(k[i]) {
      assert k[i] == lead[i - a];
    }
  }

  lemma SliceOfSuffix(k: string, a: nat, n: nat)
    requires a + n <= |k|
    ensures k[a..][..n] == k[a..a + n]
  {
  }

  /** The stripped value is a slice of the lower-cased, filtered input
      with only separators cut away at either end; its ends are letters or
      digits, so the cut runs are the whole leading and trailing runs. */
  lemma StrippedSlice(s: string)
    ensures var k := KeepAllowed(ToLower(s));
            exists a, b ::
              && 0 <= a <= b <= |k| && Stripped(s) == k[a..b]
              && (forall i :: 0 <= i < a ==> IsSeparator(k[i]))
              && (forall i :: b <= i < |k| ==> IsSeparator(k[i]))
  {
    var a, b := StrippedBounds(s);
  }

  /** Stripping both runs from clean text leaves clean text that starts and
      ends with a letter or digit. */
  lemma StripBothEnds(k: string)
    requires AllAllowed(k)
    ensures AllAllowed(StripTrailing(StripLeading(k)))
    ensures var r := StripTrailing(StripLeading(k));
            r == [] || (IsAlnum(r[0]) && IsAlnum(r[|r| - 1]))
  {
    var lead := StripLeading(k);
    var r := StripTrailing(lead);
    if r != [] {
      assert r[0] == lead[0];
      assert IsAllowed(r[0]) && !IsSeparator(r[0]);
      assert IsAllowed(r[|r| - 1]) && !IsSeparator(r[|r| - 1]);
    }
  }

  /** `sanitizeUsername(s)`, where a missing `s` is passed as the empty string.
      The result is a prefix of the stripped value of at most 30 allowed
      characters, and it never starts with a separator. */
  function SanitizeUsername(s: string): (r: string)
    ensures |r| <= MaxLength
    ensures AllAllowed(r)
    ensures r == [] || IsAlnum(r[0])
    ensures r <= Stripped(s)
    ensures |r| == Min(MaxLength, |Stripped(s)|)
  {
    Take(Stripped(s), MaxLength)
  }

  /** When nothing is cut off, the username also ends with a letter or digit. */
  lemma SanitizeEndsAlnum(s: string)
    requires |Stripped(s)| <= MaxLength
    ensures SanitizeUsername(s) == [] || IsAlnum(SanitizeUsername(s)[|SanitizeUsername(s)| - 1])
  {
    var v := Stripped(s);
    assert SanitizeUsername(s) == v;
  }

  lemma LowerNoop(s: string)
    requires AllAllowed(s)
    ensures ToLower(s) == s
  {
  }

  /** Sanitizing twice is sanitizing once, as long as the first pass did
      not have to cut the stripped value at 30 characters. */
  lemma SanitizeIdempotent(s: string)
    requires |Stripped(s)| <= MaxLength
    ensures SanitizeUsername(SanitizeUsername(s)) == SanitizeUsername(s)
  {
    var u := SanitizeUsername(s);
    var v := Stripped(s);
    assert u == v;
    SanitizeOfClean(v);
    assert Take(v, MaxLength) == v;
  }

  /** On text that is already clean the case mapping and the filter do nothing. */
  lemma StrippedClean(u: string)
    requires AllAllowed(u)
    ensures Stripped(u) == StripTrailing(StripLeading(u))
  {
    LowerNoop(u);
    FilterAll(u, IsAllowed);
  }

  lemma StripLeadingNoop(s: string)
    requires s == [] || !IsSeparator(s[0])
    ensures StripLeading(s) == s
  {
  }

  lemma StripTrailingNoop(s: string)
    requires s == [] || !IsSeparator(s[|s| - 1])
    ensures StripTrailing(s) == s
  {
  }

  lemma StripTrailingSeparator(s: string, sep: char)
    requires IsSeparator(sep)
    ensures StripTrailing(s + [sep]) == StripTrailing(s)
  {
    assert (s + [sep])[..|s|] == s;
  }

  /** Clean text that starts and ends with a letter or digit is only cut. */
  lemma SanitizeOfClean(v: string)
    requires AllAllowed(v)
    requires v == [] || (IsAlnum(v[0]) && IsAlnum(v[|v| - 1]))
    ensures SanitizeUsername(v) == Take(v, MaxLength)
  {
    if v != [] {
      assert !IsSeparator(v[0]) && !IsSeparator(v[|v| - 1]);
    }
    StripLeadingNoop(v);
    StripTrailingNoop(v);
    StrippedClean(v);
  }

  /** A separator at the end of clean text is stripped. */
  lemma SanitizeDropsTrailingSeparator(v: string, sep: char)
    requires AllAllowed(v) && v != [] && IsAlnum(v[0]) && IsAlnum(v[|v| - 1])
    requires IsSeparator(sep)
    ensures SanitizeUsername(v + [sep]) == Take(v, MaxLength)
  {
    var u := v + [sep];
    assert u[0] == v[0];
    assert !IsSeparator(u[0]) && !IsSeparator(v[|v| - 1]);
    StripLeadingNoop(u);
    StripTrailingSeparator(v, sep);
    StripTrailingNoop(v);
    assert AllAllowed(u);
    StrippedClean(u);
  }

  /** The cut at 30 characters can leave a trailing separator that a second
      pass strips: 29 letters or digits, a separator and one more letter
      sanitize to the 29 characters and the separator, and those sanitize to
      the 29 characters alone. */
  lemma TruncationBreaksIdempotence(x: string, sep: char, c: char)
    requires |x| == MaxLength - 1
    requires forall i :: 0 <= i < |x| ==> IsAlnum(x[i])
    requires IsSeparator(sep) && IsAlnum(c)
    ensures SanitizeUsername(x + [sep, c]) == x + [sep]
    ensures SanitizeUsername(SanitizeUsername(x + [sep, c])) == x
  {
    var u := x + [sep];
    var s := u + [c];
    assert s == x + [sep, c];
    assert s[0] == x[0] && s[|s| - 1] == c;
    assert AllAllowed(s) by {
      forall i | 0 <= i < |s| ensures IsAllowed(s[i]) {
        if i < |x| { assert s[i] == x[i]; }
      }
    }
    SanitizeOfClean(s);
    assert Take(s, MaxLength) == u;
    assert AllAllowed(x);
    SanitizeDropsTrailingSeparator(x, sep);
    assert Take(x, MaxLength) == x;
  }

  lemma LowerAppend(a: string, b: string)
    ensures ToLower(a + b) == ToLower(a) + ToLower(b)
  {
  }

  lemma SpacesFilteredOut(w: string)
    requires forall i :: 0 <= i < |w| ==> IsSpace(w[i])
    ensures Filter(ToLower(w), IsAllowed) == []
  {
    FilterNone(ToLower(w), IsAllowed);
  }

  lemma SplitThree(s: string, a: nat, b: nat)
    requires a <= b <= |s|
    ensures s == s[..a] + s[a..b] + s[b..]
  {
  }

  /** White space around a text is dropped by the case mapping and the
      filter together. */
  lemma FilterAroundSpaces(pre: string, mid: string, post: string)
    requires forall i :: 0 <= i < |pre| ==> IsSpace(pre[i])
    requires forall i :: 0 <= i < |post| ==> IsSpace(post[i])
    ensures KeepAllowed(ToLower(pre + mid + post)) == KeepAllowed(ToLower(mid))
  {
    LowerAppend(pre + mid, post);
    LowerAppend(pre, mid);
    var lp, lm, lq := ToLower(pre), ToLower(mid), ToLower(post);
    FilterAppend(lp + lm, lq, IsAllowed);
    FilterAppend(lp, lm, IsAllowed);
    SpacesFilteredOut(pre);
    SpacesFilteredOut(post);
    var fm := Filter(lm, IsAllowed);
    assert [] + fm == fm;
    assert fm + [] == fm;
  }

  lemma FilteredIgnoresTrim(s: string)
    ensures KeepAllowed(ToLower(Trim(s))) == KeepAllowed(ToLower(s))
  {
    var a, b := TrimBounds(s);
    SplitThree(s, a, b);
    FilterAroundSpaces(s[..a], s[a..b], s[b..]);
  }

  /** Leading and trailing white space never survives the filter, so the
      single-file edition's `sanitizeUsername(raw.trim())` equals
      `sanitizeUsername(raw)`. */
  lemma SanitizeIgnoresTrim(s: string)
    ensures SanitizeUsername(Trim(s)) == SanitizeUsername(s)
  {
    FilteredIgnoresTrim(s);
  }
}

=== FILE: views.dfy ===
/** What the feed shows for a post apart from the markup: the likes line and
    the comment preview. */
module Views {
  import opened Base
  import opened Text

  /** `n ? `${n} ${n===1?'like':'likes'}` : ''`, shared by every edition. */
  function LikesLabel(n: nat): (r: string)
    ensures r == [] <==> n == 0
    ensures n == 1 ==> r == "1 like"
    ensures n >= 2 ==> r == NatToString(n) + " likes"
  {
    if n == 0 then [] else NatToString(n) + (if n == 1 then " like" else " likes")
  }

  /** The likes line can be read back: the number it starts with is the
      count, and an empty line reads as 0. */
  lemma LikesLabelReadsBack(n: nat)
    ensures ParseIntOrZero(LikesLabel(n)) == n
  {
    if n > 0 {
      var rest := if n == 1 then " like" else " likes";
      ParseNatToString(n, rest);
    }
  }

  /** A comment list as rendered: the comments shown, and the "View all N
      comments" entry with its `N`, if there is one. */
  datatype Shown<T> = Shown(items: seq<T>, viewAll: Option<nat>)

  /** JavaScript truthiness of `firstN`: `null` and `0` are false. */
  predicate Limited(firstN: Option<nat>) {
    firstN.Some? && firstN.value > 0
  }

  /** The preview of `subscribeComments` in the PocketBase editions:
      `items = firstN ? list.slice(0, firstN) : list`, plus "View all
      list.length" exactly when `firstN` is truthy and something was cut. */
  function Preview<T>(list: seq<T>, firstN: Option<nat>): (r: Shown<T>)
    ensures r.items <= list
    ensures Limited(firstN) ==> |r.items| == Min(firstN.value, |list|)
    ensures !Limited(firstN) ==> r.items == list
    ensures r.viewAll.Some? <==> Limited(firstN) && |list| > firstN.value
    ensures r.viewAll.Some? ==> r.viewAll.value == |list|
  {
    var items := if Limited(firstN) then Take(list, firstN.value) else list;
    if Limited(firstN) && |list| > |items| then Shown(items, Some(|list|)) else Shown(items, None)
  }

  /** Nothing is hidden without saying so: without a "View all" entry every
      comment is shown, and with one its count is the full length. */
  lemma PreviewHidesNothingSilently<T>(list: seq<T>, firstN: Option<nat>)
    ensures Preview(list, firstN).viewAll.None? ==> Preview(list, firstN).items == list
    ensures Preview(list, firstN).viewAll.Some? ==>
              |Preview(list, firstN).items| < Preview(list, firstN).viewAll.value
  {
  }

  /** The Firebase preview. The query already returns at most `firstN`
      comments (`items`); the total comes from a separate count that may
      fail (`None`), and a missing total counts as 0. "View all total"
      appears exactly when `firstN` is truthy, the count succeeded and the
      total exceeds what is shown; a failed count only omits that entry. */
  function CountedPreview<T>(items: seq<T>, firstN: Option<nat>, count: Option<nat>): (r: Shown<T>)
    ensures r.items == items
    ensures r.viewAll.Some? <==> Limited(firstN) && count.Some? && count.value > |items|
    ensures r.viewAll.Some? ==> r.viewAll == count
  {
    if Limited(firstN) && count.Some? && count.value > |items| then Shown(items, count)
    else Shown(items, None)
  }

  /** When the count succeeds, the Firebase preview of the limited query
      is the PocketBase preview of the full list. */
  lemma CountedPreviewAgrees<T>(all: seq<T>, firstN: Option<nat>)
    ensures var items := if Limited(firstN) then Take(all, firstN.value) else all;
            CountedPreview(items, firstN, Some(|all|)) == Preview(all, firstN)
  {
  }

  /** A failed count shows the same comments, without the entry. */
  lemma CountFailureOnlyOmitsEntry<T>(items: seq<T>, firstN: Option<nat>, total: nat)
    ensures CountedPreview(items, firstN, None).items == CountedPreview(items, firstN, Some(total)).items
    ensures CountedPreview(items, firstN, None).viewAll == None
  {
  }
}
